=== FILE: README.md ===
# Crystal viewer core in Dafny

A model of the behaviour of the crystal visualiser's core, stated and proved in Dafny.

- `Physics` (physics.dfy) models `PhysicsWorld`. This is the chain of 20 point masses along the x axis. Both ends are pinned and springs join the bodies. The audio level kicks the chain near the playback position, and its positions are exported as a flat array for the shaders.
- `Deformation` (deformation.dfy) models the vertex-shader helpers:
  - `getSpineOffset`;
  - the radial audio "bounce";
  - the order in which the point and line shaders apply them.
- `Shading` (shading.dfy) models three things:
  - the fragment helpers `getHue` and `applyPalette`;
  - the random per-line seed, and how the index buffer turns it into a per-vertex attribute;
  - the seed's split of the wireframe between the standard and the XOR line material.
- `Controls` (controls.dfy) models the fourteen smoothed uniforms and their per-frame `lerp`, the palette fade, and the slider setters.
- `Audio` (audio.dfy) models four parts of the audio side:
  - the RMS level of an analyser frame;
  - the attack/decay envelope that becomes `uAudioLevel`;
  - the play/pause/stop/load state machine;
  - `getAudioProgress` and the mapping from playback to `uPlayX`.
- `Viewer` (viewer.dfy) composes one pass of `animate` in the order the source runs it.
- `Ply` (ply.dfy) models `parsePLY`: the header window and counts, the whitespace tokenizer, and the six-tokens-per-vertex, two-tokens-per-edge layout.
- `Rings` (rings.dfy) models the topology of `parseAudio`: which samples start a ring, the eight vertices per ring, and the links between consecutive rings.
- `Vectors` (vectors.dfy) holds shared vector arithmetic and the GLSL/JavaScript numeric builtins.

Some things are parameters rather than computed:
- the random values (`Math.random`, as force directions, seeds or coins);
- the audio clock;
- `Math.sqrt` and GLSL `length` (the caller passes the root);
- the physics library's integration step (its resulting positions);
- `parseFloat`/`parseInt` and `Color.set`;
- `Math.pow(100, e)` in the XOR opacity curve (the parameter `growth` of `Controls.XorOpacity`).

Floating point is modelled by exact reals.

## Model

| member | source | states |
|---|---|---|
| Vectors.Mix | src/main.js:364 | the lerp stays between its ends for t in [0, 1], and leaves the fraction 1 - t of the gap to the target |
| Vectors.Fract | src/main.js:693 | fract lies in [0, 1) and differs from x by an integer (its floor) |
| Vectors.Trunc | src/main.js:692 | GLSL int() agrees with floor for x >= 0, rounds up for negative x, and gives 0 on (-1, 1) |
| Vectors.Smoothstep | src/main.js:718 | smoothstep, including reversed edges, stays in [0, 1] and is positive once its normalised argument is |
| Physics.InitSpine | src/physics.js:22-58 | after n iterations there are n bodies at x = i*step - length/2, y = z = 0, ends massless, no force, and n-1 springs each joining i and i+1 with rest length step, stiffness 100, damping 4 |
| Physics.NewWorld | src/physics.js:4-20 | construction yields a valid world: ends at -length/2 and +length/2, neighbours exactly one step apart along x, pinned ends, unit interior masses |
| Physics.TargetIndex | src/physics.js:78-82 | the aimed body is always inside the chain; it exists whenever the step is non-zero (only the 0/0 NaN index has none) |
| Physics.TargetBrackets | src/physics.js:78-82 | floor, not nearest: for playX on the chain the target is the body at or just left of playX, the next one lies strictly right of it |
| Physics.Spread | src/physics.js:102-106 | the neighbour loop from distance d adds to every body the share 1/2 or 1/3 of the force for distances d..2, and nothing else |
| Physics.ApplyAudioForce | src/physics.js:76-107 | each body's force grows by exactly Received: level*500 along dir at the target, half and a third at distance 1 and 2, nothing beyond or when the target is pinned; the world stays valid and nothing else changes |
| Physics.NoKickOutsideInterior | src/physics.js:81-85 | left of body 1 or at/after the right end the target is a pinned end, so the call changes nothing |
| Physics.SentinelIsNoKick | src/physics.js:85 | the "not playing" position -9999 never kicks a chain shorter than 19998 |
| Physics.KickInsideInterior | src/physics.js:81-99 | conversely, between body 1 and the right end the target is an interior body and receives exactly dir*(level*500) |
| Physics.Flatten | src/physics.js:68-73 | body i lands in slots 3i, 3i+1, 3i+2 of the export array |
| Physics.Update | src/physics.js:60-74 | after a step the export array, read back as vec3 entries, is exactly the stepped positions; the world stays valid |
| Physics.UnflattenFlatten | src/physics.js:68-73 | the shader's vec3 reading undoes the export loop |
| Physics.FlattenUnflatten | src/physics.js:68-73 | and the export loop undoes the shader's reading of any array of length divisible by 3 |
| Physics.DefaultChain | src/main.js:100 | the viewer's 50/20 chain has step 50/19 and half length 25, the constants the shaders hard-code, with body k resting at -25 + k*50/19 |
| Deformation.RestSpine | src/main.js:690-691 | the shader's assumed rest spine runs from (-25,0,0) to (25,0,0) over 20 slots |
| Deformation.SpineOffsetRestLeftGap | src/main.js:689-701 | as written, for x in (-25-50/19, -25) a resting spine still displaces the point by 50/19 along x, because int() truncates the negative index to 0 |
| Deformation.SpineOffsetRestAtMinus26 | src/main.js:689-701 | the concrete input x = -26 gives a non-zero offset on a resting spine |
| Deformation.SpineOffsetRestZeroOutsideGap | src/main.js:689-701 | as written, a resting spine gives no offset anywhere outside that one-step gap |
| Deformation.SpineOffsetFloor | src/main.js:689-701 | with floor, every x left of the chain gets no offset (the shader's own stated intent) and every x past its end gets the last body's displacement |
| Deformation.SpineOffsetFloorRestIsZero | src/main.js:689-701 | with floor, a resting spine displaces nothing, for every x |
| Deformation.SpineOffsetAgreesOutsideGap | src/main.js:689-701 | for any spine, the as-written int() lookup and the floor lookup agree everywhere except the one-step gap left of -25 |
| Deformation.SpineOffsetAtKnot | src/main.js:689-701 | at body k's resting x both the as-written and the floor offset are exactly how far body k has moved |
| Deformation.Influence | src/main.js:718 | the bounce weight is in [0, 1], 1 at the play position, positive closer than 3 units and 0 from 3 units on |
| Deformation.Bounce | src/main.js:716-724 | the bounce has no x part, vanishes at or below the noise floor, without a play position or 3 units away; it is parallel to (y, z), points outward, and above the noise floor with a play position its length is exactly level·influence·8 (so never more than 8*level) |
| Deformation.Radial | src/main.js:719-723 | the normalised radial direction scaled by m is parallel to and outward along (y, z) and has squared length m*m |
| Deformation.UnitSquare | src/main.js:721 | dividing (y, z) by its length gives a unit vector |
| Deformation.PointMatchesLine | src/main.js:716-733 | given the same warp and play position, bounce first (points) or bounce last (lines) deform a vertex identically, because the bounce does not change x |
| Deformation.AudioPointBounceTwice | src/main.js:1749-1792 | the audio point shader moves a vertex by the line displacement plus a second bounce; at level 0.5 a point at (0,1,0) is pushed 8 units, not 4 |
| Deformation.RestAndSilentIsWarpOnly | src/main.js:998-1015 | with a resting spine and no audible level, a standard-line or point vertex whose warped x is outside the gap left of -25 moves by the noise warp alone |
| Deformation.LineStillWhenStopped | src/main.js:1005 | with `uPlayX` bound, a stopped track (uPlayX at or below -9000) adds no bounce to a line vertex, however loud the decaying level |
| Deformation.XorLineBouncesWhenStopped | src/main.js:1130-1151 | as written the XOR line reads uPlayX = 0, so after a stop, with the level above 0.01, a vertex within 3 of x = 0 gets a non-zero bounce on top of the standard line's position |
| Deformation.XorLineAtSentinel | src/main.js:1235-1251 | after a stop, the XOR copy of (0, y, 0) on a resting spine sits at (0, y + 8·level, 0) and the standard copy at (0, y, 0) |
| Deformation.RestAndSilentInGap | src/main.js:998-1015 | with a resting spine and no audible level, a vertex whose warped x falls in that gap is moved 50/19 further along x by the as-written lookup |
| Shading.Hue | src/main.js:762-775 | the hue lies in [0, 1) and is 0 for greys |
| Shading.HueShift | src/main.js:762-775 | adding the same amount to every channel keeps the hue |
| Shading.HueScale | src/main.js:762-775 | scaling a colour by a positive factor keeps the hue |
| Shading.HuePrimaries | src/main.js:762-775 | red, green and blue sit at 0, 1/3 and 2/3 of a turn |
| Shading.Segment | src/main.js:779-780 | int(hue*5) always lies in 0..4 |
| Shading.ApplyPalette | src/main.js:777-789 | the result interpolates the two palette entries of the hue's segment at the hue's fraction; the closing `return uPalette[5]` is unreachable |
| Shading.PaletteBetween | src/main.js:777-789 | each channel of the result lies between the two palette entries of its segment |
| Shading.UniformPalette | src/main.js:777-789 | a palette of one repeated colour paints every vertex that colour |
| Shading.PalettePrimaries | src/main.js:777-789 | greys and red take the first palette entry; green and blue land 2/3 into segment 1 and 1/3 into segment 3 |
| Shading.LineSeeds | src/main.js:866-872 | both index slots of line e hold draw e |
| Shading.IndexedLineEnds | src/main.js:866-878 | as written the seed attribute is read per vertex through the index buffer, so the ends of line e carry the seeds of vertices allIndices[2e] and allIndices[2e+1] |
| Shading.IndexedLineSplits | src/main.js:866-878 | for every track and coin, the first line joins vertices 0 and 8, and a threshold between draws 0 and 4 draws its two ends with different materials |
| Shading.SeedConstantAlongLine | src/main.js:866-872 | read per index slot, the interpolated seed of line e is its own draw e at every point |
| Shading.SlotLineWhole | src/main.js:1085 | read per index slot, every point of line e is drawn by the same material as draw e selects, so no line is split |
| Shading.MaterialsPartition | src/main.js:1085 | every fragment seed passes the XOR-threshold test of exactly one of the standard and XOR materials, so the two slot sets partition the slots |
| Shading.XorPoolGrows | src/main.js:1313 | raising the threshold only moves seeds from the standard to the XOR material |
| Controls.SmoothStep | src/main.js:364-381 | one frame leaves 0.8 of every field's gap to its target, 0.64 for the two fields the loop lerps twice |
| Controls.SmoothBetween | src/main.js:364-381 | each smoothed value lands between its old value and its target |
| Controls.SmoothFixpoint | src/main.js:364-381 | values at their targets stay put |
| Controls.SmoothFramesGap | src/main.js:364-381 | after n frames the gap has shrunk by 0.8^n (0.64^n for the doubled fields) |
| Controls.SetInvertInfluence | src/main.js:330-334 | the value is written to both the target and the live uniform; nothing else changes |
| Controls.InvertInfluenceHolds | src/main.js:330-334 | the next frame keeps the value just set despite the double lerp |
| Controls.FadeNear | src/main.js:1343 | the slider 0..100 maps onto 2..150 |
| Controls.FadeNearMonotone | src/main.js:1343 | a further slider position never fades sooner |
| Controls.SetLineDist | src/main.js:1341-1346 | the far fade is 1.5 times the near one; no other target moves |
| Controls.SetNodeDist | src/main.js:1348-1352 | the same for the point cloud |
| Controls.SetLineDensity | src/main.js:1358-1360 | the target is the slider's percentage as a fraction; no other target moves |
| Controls.SetNodeDensity | src/main.js:1362-1364 | the same for points |
| Controls.XorOpacity | src/main.js:1366-1376 | the quadratic ramp runs from 0.008 to 0.068 over 0..33, and above 33 the value is 0.068 + 0.1*growth |
| Controls.XorOpacityMonotone | src/main.js:1372-1373 | on the ramp a larger slider value never gives less opacity |
| Controls.XorOpacityJump | src/main.js:1372-1376 | the opacity jumps by more than 0.1 across the knee at 33 |
| Controls.XorThreshold | src/main.js:1381 | the threshold is never below 0.005 nor below val/2000, and equals one of them, so it is max(0.005, val/2000) |
| Controls.XorThresholdMonotone | src/main.js:1381 | a larger slider value never lowers the threshold |
| Controls.SetXorDensity | src/main.js:1366-1382 | writes exactly the opacity and threshold targets |
| Controls.SmoothPalette | src/main.js:414-416 | each palette colour keeps 0.9 of its gap to the target |
| Controls.PaletteTableShape | src/main.js:103-112 | the table knows exactly the eight menu names, each with six colours |
| Controls.SetPalette | src/main.js:344-349 | known names give their six parsed colours; any other name falls back to the classic palette |
| Audio.SampleSquare | src/main.js:393-394 | a sample's normalised square lies in [0, 1] and is 0 exactly at the byte 128 |
| Audio.SumSquares | src/main.js:391-395 | the running sum lies in [0, n] and is 0 exactly for an all-silent frame |
| Audio.MeanSquare | src/main.js:396 | the mean square lies in [0, 1] and is 0 exactly for silence |
| Audio.RawLevel | src/main.js:384-397 | while listening the level is the root mean square of the frame (its square is the mean square), so it is 0 exactly for a silent frame; it lies in [0, 1] and is 0 when not listening |
| Audio.Envelope | src/main.js:401-406 | the level moves toward the frame's level, by half the gap when rising and a tenth when falling, never overshooting |
| Audio.EnvelopeInUnit | src/main.js:401-406 | the envelope keeps the level in [0, 1] |
| Audio.AttackFasterThanDecay | src/main.js:403-405 | a rise is followed five times faster than an equal fall |
| Audio.SilenceDecays | src/main.js:401-406 | n silent frames scale the level by 0.9^n |
| Audio.Play | src/main.js:1902-1918 | playing resumes exactly from the paused position; already playing or without a context nothing changes |
| Audio.Pause | src/main.js:1920-1925 | pausing freezes the position reached; when not playing nothing changes |
| Audio.Stop | src/main.js:1927-1934 | stopping rewinds to 0 and hides the play position, keeping context and buffer |
| Audio.Toggle | src/main.js:1892-1900 | without a context false and no change; otherwise flips playing and reports the new state |
| Audio.Load | src/main.js:1438-1462 | loading leaves a stopped, rewound player with context, buffer and the new duration |
| Audio.PlayPauseKeepPosition | src/main.js:1914-1923 | play and pause at the same instant keep the track position |
| Audio.PauseResume | src/main.js:1914-1923 | time spent paused does not count toward the track position |
| Audio.Progress | src/main.js:1936-1948 | the progress lies in [0, 1] and is elapsed/duration within the track; past the end a playing track is stopped and reports 1; without a buffer 0 |
| Audio.Fraction | src/main.js:1947 | the clamped ratio is in [0, 1] and times d gives back t when t is within [0, d] |
| Audio.SafeDuration | src/main.js:1938 | a zero duration counts as one second |
| Audio.Sync | src/main.js:421-440 | without track or box nothing changes; a playing track at its end is stopped; context, buffer and duration are kept |
| Audio.SyncTracksProgress | src/main.js:424-438 | while playing, uPlayX sits at the same fraction of the box as elapsed time is of the track |
| Audio.SyncPausedInBox | src/main.js:430-438 | a paused track puts uPlayX at minX + (pauseTime/duration)·(maxX − minX), inside the box, changing nothing else |
| Audio.SyncKeepsSentinel | src/main.js:423-435 | a stopped track leaves uPlayX alone, so the -9999 sentinel survives |
| Viewer.Initial | src/main.js:58-115 | the new viewer is valid and silent, not playing, with the 20-body spine, default uniforms on both sides, a white current palette and the classic palette as its target |
| Viewer.Kick | src/main.js:409-412 | the physics kick keeps the world valid and its size |
| Viewer.Frame | src/main.js:361-486 | one frame keeps the viewer valid, leaves targets alone, shrinks every uniform's gap as Smooth does and every palette gap to 0.9, and exports exactly the stepped positions |
| Viewer.SilentFrameDecays | src/main.js:384-406 | without a playing track the level decays by a tenth per frame |
| Viewer.QuietFrameNoKick | src/main.js:409 | a level at or below 0.01 pushes no body |
| Viewer.SentinelFrameNoKick | src/main.js:409-411 | while uPlayX is the sentinel no body is pushed, however loud |
| Viewer.KickPrecedesSync | src/main.js:409-439 | the kick uses the previous frame's uPlayX: the frame that reaches the end stops the track yet still pushes at the old position |
| Viewer.DefaultExportIsRestSpine | src/main.js:100-101 | an unmoved default chain exports exactly the rest spine the shaders hard-code |
| Ply.IndexFrom | src/main.js:539 | indexOf finds the leftmost occurrence at or after from, or reports there is none |
| Ply.HeaderEnd | src/main.js:537-540 | the body starts right after the first end_header\n inside the first 2048 characters, or at 0 when there is none there |
| Ply.FirstDeclaration | src/main.js:545-546 | the leftmost `key` followed by a digit, or none |
| Ply.ValueShow | src/main.js:545-546 | reading a written numeral gives back the number |
| Ply.CountReadsDeclaration | src/main.js:545-546 | a header line `key n` followed by a non-digit, with no earlier declaration, is read back as n |
| Ply.NoHeaderNoGeometry | src/main.js:537-546 | a file without end_header\n in its first 2048 characters yields 0 vertices and 0 edges |
| Ply.Split | src/main.js:548 | split(/\s+/) gives at least one piece and no piece holds white space |
| Ply.SplitKeepsText | src/main.js:548 | the pieces laid end to end are the text without its white space |
| Ply.Trim | src/main.js:548 | trim leaves no white space at either end |
| Ply.TrimKeepsText | src/main.js:548 | trim removes white space only |
| Ply.TokenizeBlank | src/main.js:548 | an all-space body gives the single empty token |
| Ply.TokenizeWords | src/main.js:548 | otherwise the tokens are non-empty, space-free, and together the body without white space |
| Ply.SplitJoin | src/main.js:548 | splitting undoes joining words with single spaces |
| Ply.TokenizeJoin | src/main.js:548 | the tokens of a body written as single-spaced words are those words |
| Ply.ReadBody | src/main.js:549-571 | entry j of positions reads token PositionSlot(j), of colours ColorSlot(j), and edge entry j token 6V+j; the arrays have sizes 3V, 3V, 2E |
| Ply.Parse | src/main.js:535-571 | the counts are those of the header, and each array entry is its parser applied to the right body token |
| Ply.VertexLayout | src/main.js:555-563 | vertex i is read from tokens 6i..6i+5 as x y z r g b |
| Rings.CeilDiv | src/main.js:1506-1507 | the rounded-up quotient is the least multiple reaching a |
| Rings.RingSchedule | src/main.js:1474-1507 | ring k starts at RingAt(k, floor(total/2000)), every ring start is a sample of the track, and the next ring would lie past its end |
| Rings.RingsIncrease | src/main.js:1496-1507 | ring starts strictly increase and sit on the stride of 10 |
| Rings.DenseWhenShort | src/main.js:1478-1507 | with a step of at most 10 every stride starts a ring |
| Rings.SpacedWhenLong | src/main.js:1478-1507 | with a longer step consecutive rings are within 10 samples of step apart |
| Rings.SegmentLinks | src/main.js:1582-1593 | each segment pushes its rung and its rim edge first, then up to two diagonals; every link joins ring r-1 or r to ring r |
| Rings.RingJoin | src/main.js:1581-1594 | a ring joins to the one before with 2 to 4 links per segment |
| Rings.Links | src/main.js:1580-1595 | the first ring adds no links, each later one 16 to 32 |
| Rings.RingJoinLinks | src/main.js:1581-1594 | every link a ring makes with its predecessor is a rung, rim edge or diagonal ending in that ring |
| Rings.LinksWellFormed | src/main.js:1580-1595 | every pushed pair is a rung, rim edge or diagonal among existing rings |
| Rings.Flat | src/main.js:1589-1592 | allIndices holds each link as its two vertex indices ring*8 + seg |
| Rings.Stats | src/main.js:1882-1888 | nodes are 8 per ring, links between 16 and 32 per ring after the first, layers 2 |
| Rings.IndicesInRange | src/main.js:1583-1592 | every index names an existing vertex |
| Rings.RungsAndRims | src/main.js:1589-1590 | whatever the random coins, each later ring is closed around and tied by a rung per segment to its predecessor |
| Rings.NoDiagonals | src/main.js:1591-1592 | with no diagonals drawn there are exactly 16 links per ring after the first |
| Rings.FirstLinkIsRung | src/main.js:1589 | the first pushed link of every track is the rung from vertex 0 of ring 0 to vertex 0 of ring 1 |
| Rings.AllIndicesStart | src/main.js:1589 | allIndices has at least 32 entries and starts with 0, 8 |

## Left out

- The rigid-body integrator: `update` calls `spring.applyForce`, the accumulating fixed step `world.step(1/60, dt, 3)` and the library's damping. `Physics.Update` receives the positions the library produced; force application is modelled as accumulation into `force`. The library consumes and clears those forces in its step, so in the model they keep accumulating.
- A static end body (mass 0) within two bodies of the target is credited with its spread share in `force`, whereas cannon-es ignores `applyForce` on a static body. This does not move anything, since positions come from the library's step.
- The random force direction of `applyAudioForce`, `(random-0.5)*0.2, random-0.5, random-0.5` normalised, is the parameter `dir`.
- `Physics.NewWorld` and the rest of `Physics` require `count >= 2`. With one body the step is a division by zero; the viewer always uses 20.
- Float32 storage of `spinePositions`, GLSL float precision and all rounding are not modelled: every number is an exact real.
- `Math.sqrt` and GLSL `length` are not computed. Callers pass the root, with the defining equation as a precondition.
- Noise: the simplex noise `getSoupOffset` is the input `soup`. The pulse, the point-size LFO, auto-pan, the camera and rendering are also left out; they only feed the screen.
- Neither line material binds `uTime` (src/main.js:890-903, 1130-1142), so both line shaders warp with the time-0 noise `getSoupOffset(position, 0.0)`. The point materials bind the running clock (src/main.js:603, 1629). Lines and points therefore get different `soup` once the clock has moved; `Deformation.PointMatchesLine` compares them only under the same warp.
- Vectors.Smoothstep: GLSL ES leaves `smoothstep` undefined when edge0 >= edge1, and `Influence` relies on `smoothstep(3.0, 0.0, d)`. The model uses the clamp-and-Hermite formula that drivers compute.
- The point shader's colour mixing, saturation and opacity fades and the playback glow are left out; only the palette mapping and the material split are modelled.
- The trivial setters `setThinning`, `setLineOpacity`, `setNodeSaturation`, `setNodeOpacity` and `setColorInfluence` each write one target. They are smoothed by `Controls.Smooth`, but have no function of their own.
- Controls.SetPalette: `this.palettes[name]` would also find inherited `Object.prototype` names such as `toString`. The model only distinguishes the eight table names from everything else.
- Audio: the Web Audio graph, the analyser, decoding and `suspend`/`resume` are left out. A decoded buffer is assumed to have a positive duration, the invariant `Audio.Valid`.
- Audio.RawLevel: the level is 0 unless playing with a buffer. The source also checks the analyser node and the context, which always exist while playing with a buffer.
- Ply: the file is taken as ASCII, so one decoded character is one byte. `TextDecoder` on multibyte UTF-8 near the 2048-byte cut is not modelled.
- Ply: `parseFloat`/`parseInt` are the parameters `number`, `channel` and `index`, over an open result type so that they can yield NaN. Building the THREE geometry is left out.
- Rings: vertex coordinates, colours and radii are not modelled. This covers sine, cosine, jitter, the low-pass filter and HSL. So is the x coordinate of a track shorter than 2000 samples, where the step is 0 and x is NaN. The random ring rotation is also left out; the diagonal coin flips are the parameter `coin`.
- RestAndSilentIsWarpOnly: holds only for a warped x outside (-25-50/19, -25). Inside that gap `Deformation.RestAndSilentInGap` shows the as-written int() slot moves the vertex by 50/19 (Findings row 1).
- Where the code and its own comments disagree, the model follows the code:
  - the XOR opacity jumps at 33, although the comment at src/main.js:1370 promises an ultra-smooth curve;
  - the physics target is the body found by floor, not the closest body the comment at src/physics.js:77 names.
- Two behaviours are modelled as written, with no comment to compare them against:
  - `playAudio` checks only for a context, not for a buffer (src/main.js:1903);
  - the analyser frame holds 128 samples, because the FFT size is 256 (src/main.js:1909).

## Findings

| source | as written | input that shows it | evidently intended | confidence | as-written member | corrected member |
|---|---|---|---|---|---|---|
| src/main.js:689-701 | `int(idx)` truncates toward zero, so for -25-50/19 < x < -25 the slot is 0 and `fract` interpolates a full step ahead | x = -26 on a resting spine gives offset (50/19, 0, 0), not zero | `floor(idx)`: the comment on the `i < 0` branch says every x left of -25 gets no offset | not executed | Deformation.SpineOffsetRestLeftGap | Deformation.SpineOffsetFloorRestIsZero |
| src/main.js:1749-1792 | the audio point shader adds the bounce in `begin_vertex` and again after the spine offset | level 0.5 at the play position pushes the point (0,1,0) by 8 instead of 4 | one bounce, as the PLY point shader and the line shaders do | not executed | Deformation.AudioPointBounceTwice | Deformation.PointMatchesLine |
| src/main.js:1130-1151 | the XOR line material never binds `uPlayX`, so its vertex shader reads the default 0 and the test `uPlayX > -9000.0` (src/main.js:1241) always passes | after a stop, level 0.5 still decaying: the XOR copy of (0,1,0) on a resting spine is pushed to (0,5,0), while the standard copy stays at (0,1,0) | bind `uPlayX` as the standard material does (src/main.js:900), so a stopped track bounces no line | not executed | Deformation.XorLineBouncesWhenStopped | Deformation.LineStillWhenStopped |
| src/main.js:866-878 | `aLineSeed` is filled per index slot (draw e at slots 2e and 2e+1), but `setIndex(allIndices)` makes it a per-vertex attribute, so line e reads the seeds of vertices allIndices[2e] and allIndices[2e+1] | the first line joins vertices 0 and 8, whose seeds are draws 0 and 4; with draws 0.1 and 0.9 and threshold 0.3 its ends are drawn by different materials | one seed per line, so each line is wholly standard or wholly XOR | not executed | Shading.IndexedLineSplits | Shading.SlotLineWhole |

=== FILE: audio.dfy ===
/** The viewer's audio side: the loudness of one analyser frame (an RMS over
    unsigned 8-bit time-domain samples), the attack/decay envelope that
    smooths it into `uAudioLevel`, the play/pause/stop state machine driven
    by the audio clock, and the mapping from playback progress to the
    highlighted x position `uPlayX`. The audio clock `currentTime` is the
    parameter `now`; `Math.sqrt` is not computed: the caller passes the root. */
module Audio {
  import opened Vectors

  /** One unsigned byte of `getByteTimeDomainData`; 128 is silence. */
  type Byte = x: int | 0 <= x < 256

  /** Samples per analyser frame: `frequencyBinCount` for an FFT size of 256. */
  const FrameSamples: nat := 128

  /** `uPlayX` while nothing is playing. */
  const NotPlaying: real := -9999.0

  const Attack: real := 0.5
  const Decay: real := 0.1

  /** One sample mapped to [-1, 1) and squared. */
  function SampleSquare(b: Byte): (r: real)
    ensures 0.0 <= r <= 1.0
    ensures r == 0.0 <==> b == 128
  {
    var v := (b - 128) as real / 128.0;
    assert -1.0 <= v < 1.0;
    assert 0.0 <= v * v <= 1.0 by {
      if v >= 0.0 { MulNonNegative(v, v); SquareMonotone(v, 1.0); }
      else { MulNonNegative(-v, -v); SquareMonotone(-v, 1.0); }
    }
    var r := v * v;
    assert r == 0.0 ==> b == 128 by {
      if b != 128 { SquarePositive(v); calc { r; == v * v; > 0.0; } }
    }
    r
  }

  /** The running `sum += v * v` of the RMS loop. */
  function SumSquares(bs: seq<Byte>): (s: real)
    ensures 0.0 <= s <= |bs| as real
    ensures s == 0.0 <==> forall i :: 0 <= i < |bs| ==> bs[i] == 128
  {
    if |bs| == 0 then 0.0
    else
      var rest := SumSquares(bs[..|bs| - 1]);
      assert forall i :: 0 <= i < |bs| - 1 ==> bs[..|bs| - 1][i] == bs[i];
      rest + SampleSquare(bs[|bs| - 1])
  }

  /** `sum / dataArray.length`. */
  function MeanSquare(bs: seq<Byte>): (m: real)
    requires |bs| > 0
    ensures 0.0 <= m <= 1.0
    ensures m == 0.0 <==> forall i :: 0 <= i < |bs| ==> bs[i] == 128
  {
    var s := SumSquares(bs);
    var n := |bs| as real;
    assert s / n <= 1.0 by {
      assert (s / n) * n == s;
      if s / n > 1.0 { MulPositive(s / n - 1.0, n); }
    }
    s / n
  }

  /** The raw level of one frame: the RMS `rms` (the root of the mean square)
      while audio is playing, 0 otherwise. */
  function RawLevel(active: bool, bs: seq<Byte>, rms: real): (r: real)
    requires active ==> |bs| > 0 && rms >= 0.0 && rms * rms == MeanSquare(bs)
    ensures 0.0 <= r <= 1.0
    ensures active ==> r * r == MeanSquare(bs)
    ensures active ==> (r == 0.0 <==> forall i :: 0 <= i < |bs| ==> bs[i] == 128)
    ensures !active ==> r == 0.0
  {
    if active then
      RootBounds(rms, MeanSquare(bs));
      rms
    else
      0.0
  }

  /** A root of a value in [0, 1] is in [0, 1], and only 0 is the root of 0. */
  lemma RootBounds(root: real, m: real)
    requires root >= 0.0 && root * root == m && m <= 1.0
    ensures root <= 1.0
    ensures m == 0.0 ==> root == 0.0
  {
    if root > 1.0 {
      MulPositive(root - 1.0, root + 1.0);
    }
    if m == 0.0 && root != 0.0 {
      SquarePositive(root);
      calc { m; == root * root; > 0.0; }
    }
  }

  /** The smoothed level: half-way toward a louder frame, a tenth of the way
      toward a quieter one. */
  function Envelope(prev: real, raw: real): (r: real)
    ensures (prev <= r <= raw) || (raw <= r <= prev)
    ensures raw > prev ==> r - prev == (raw - prev) * Attack
    ensures raw <= prev ==> r - prev == (raw - prev) * Decay
  {
    if raw > prev then Mix(prev, raw, Attack) else Mix(prev, raw, Decay)
  }

  /** The envelope keeps the level in [0, 1] when the frames are. */
  lemma EnvelopeInUnit(prev: real, raw: real)
    requires 0.0 <= prev <= 1.0 && 0.0 <= raw <= 1.0
    ensures 0.0 <= Envelope(prev, raw) <= 1.0
  {
  }

  /** A rise is followed five times faster than a fall of the same size. */
  lemma AttackFasterThanDecay(prev: real, delta: real)
    requires delta > 0.0
    ensures Envelope(prev, prev + delta) - prev == 5.0 * (prev - Envelope(prev, prev - delta))
  {
  }

  /** n silent frames in a row. */
  function Silence(prev: real, n: nat): real
    decreases n
  {
    if n == 0 then prev else Envelope(Silence(prev, n - 1), 0.0)
  }

  /** With silent frames a non-negative level decays by 0.9 per frame and
      never goes negative. */
  lemma {:induction false} SilenceDecays(prev: real, n: nat)
    requires prev >= 0.0
    ensures Silence(prev, n) == prev * Pow(0.9, n)
    ensures Silence(prev, n) >= 0.0
    decreases n
  {
    if n > 0 {
      SilenceDecays(prev, n - 1);
      var before := Silence(prev, n - 1);
      assert Silence(prev, n) == before * 0.9;
      assert (prev * Pow(0.9, n - 1)) * 0.9 == prev * (0.9 * Pow(0.9, n - 1));
    }
  }

  /** The player: whether an audio context and a decoded buffer exist,
      whether it is playing, the clock value playback started from, the
      position it was paused at, the buffer's duration and `uPlayX`. */
  datatype Player = Player(
    hasContext: bool, hasBuffer: bool, playing: bool,
    startTime: real, pauseTime: real, duration: real, playX: real)

  const Initial: Player := Player(false, false, false, 0.0, 0.0, 0.0, NotPlaying)

  /** Playback needs an audio context, and a decoded buffer holds at least
      one frame, so its duration is positive. */
  predicate Valid(p: Player) {
    (p.playing ==> p.hasContext) && (p.hasBuffer ==> p.duration > 0.0) && p.duration >= 0.0
  }

  /** Seconds into the track: live while playing, frozen while paused. */
  function Elapsed(p: Player, now: real): real {
    if p.playing then now - p.startTime else p.pauseTime
  }

  /** `playAudio`: does nothing when already playing or without a context;
      otherwise resumes from the paused position. */
  function Play(p: Player, now: real): (q: Player)
    ensures Valid(p) ==> Valid(q)
    ensures p.playing || !p.hasContext ==> q == p
    ensures !p.playing && p.hasContext ==> q.playing && Elapsed(q, now) == p.pauseTime
    ensures q.pauseTime == p.pauseTime && q.playX == p.playX && q.duration == p.duration
  {
    if p.playing || !p.hasContext then p
    else p.(startTime := now - p.pauseTime, playing := true)
  }

  /** `pauseAudio`: does nothing unless playing; otherwise remembers how far
      playback got. */
  function Pause(p: Player, now: real): (q: Player)
    ensures Valid(p) ==> Valid(q)
    ensures !p.playing ==> q == p
    ensures p.playing ==> !q.playing && q.pauseTime == Elapsed(p, now)
    ensures q.playX == p.playX && q.duration == p.duration
  {
    if !p.playing then p
    else p.(pauseTime := now - p.startTime, playing := false)
  }

  /** `stopAudio`: stops, rewinds and hides the play position. */
  function Stop(p: Player): (q: Player)
    ensures Valid(p) ==> Valid(q)
    ensures !q.playing && q.pauseTime == 0.0 && q.playX == NotPlaying
    ensures q.hasContext == p.hasContext && q.hasBuffer == p.hasBuffer && q.duration == p.duration
  {
    p.(playing := false, pauseTime := 0.0, playX := NotPlaying)
  }

  /** `toggleAudio`: without a context answers false and changes nothing;
      otherwise pauses or plays and answers whether it now plays. */
  function Toggle(p: Player, now: real): (r: (bool, Player))
    ensures Valid(p) ==> Valid(r.1)
    ensures !p.hasContext ==> r == (false, p)
    ensures p.hasContext ==> r.0 == r.1.playing == !p.playing
  {
    if !p.hasContext then (false, p)
    else
      var q := if p.playing then Pause(p, now) else Play(p, now);
      (q.playing, q)
  }

  /** `loadAudio`: stops the current track, makes sure a context exists and
      installs the new buffer. `duration` is the decoded buffer's. */
  function Load(p: Player, duration: real): (q: Player)
    requires duration > 0.0
    ensures Valid(p) ==> Valid(q)
    ensures q.hasContext && q.hasBuffer && !q.playing && q.duration == duration
    ensures q.pauseTime == 0.0 && q.playX == NotPlaying
  {
    Stop(p).(hasContext := true, hasBuffer := true, duration := duration)
  }

  /** Playing and pausing at the same instant keep the track position. */
  lemma PlayPauseKeepPosition(p: Player, now: real)
    requires p.hasContext
    ensures Elapsed(Play(p, now), now) == Elapsed(p, now)
    ensures Elapsed(Pause(p, now), now) == Elapsed(p, now)
  {
  }

  /** Time spent paused does not count: pausing at t1 and resuming at t2
      puts the track, d seconds later, d seconds past where it was paused. */
  lemma PauseResume(p: Player, t1: real, t2: real, d: real)
    requires Valid(p) && p.playing
    ensures Elapsed(Play(Pause(p, t1), t2), t2 + d) == Elapsed(p, t1) + d
  {
  }

  /** `getAudioProgress`: the fraction of the track played, in [0, 1], and the
      player afterwards (a track played past its end is stopped). A zero
      duration counts as one second. */
  function Progress(p: Player, now: real): (r: (real, Player))
    requires Valid(p)
    ensures 0.0 <= r.0 <= 1.0
    ensures Valid(r.1)
    ensures !p.hasBuffer ==> r == (0.0, p)
    ensures p.hasBuffer && p.playing && Elapsed(p, now) > SafeDuration(p) ==> r == (1.0, Stop(p))
    ensures p.hasBuffer && 0.0 <= Elapsed(p, now) <= SafeDuration(p) ==>
              r.1 == p && r.0 * SafeDuration(p) == Elapsed(p, now)
    ensures p.hasBuffer && Elapsed(p, now) <= 0.0 ==> r == (0.0, p)
  {
    if !p.hasBuffer then (0.0, p)
    else
      var duration := SafeDuration(p);
      var t := Elapsed(p, now);
      if t > duration then
        (Fraction(duration, duration), if p.playing then Stop(p) else p)
      else
        (Fraction(t, duration), p)
  }

  /** `Math.max(0, Math.min(1.0, t / duration))`. */
  function Fraction(t: real, d: real): (f: real)
    requires d > 0.0
    ensures 0.0 <= f <= 1.0
    ensures 0.0 <= t <= d ==> f * d == t
    ensures t >= d ==> f == 1.0
    ensures t <= 0.0 ==> f == 0.0
  {
    QuotientBounds(t, d);
    Clamp(t / d, 0.0, 1.0)
  }

  /** Where t / d lies, for a positive d, relative to 0 and 1. */
  lemma QuotientBounds(t: real, d: real)
    requires d > 0.0
    ensures (t / d) * d == t
    ensures t >= d ==> t / d >= 1.0
    ensures t <= d ==> t / d <= 1.0
    ensures t <= 0.0 ==> t / d <= 0.0
    ensures t >= 0.0 ==> t / d >= 0.0
  {
    var q := t / d;
    assert q * d == t;
    if q < 1.0 { MulPositive(1.0 - q, d); }
    if q > 1.0 { MulPositive(q - 1.0, d); }
    if q > 0.0 { MulPositive(q, d); }
    if q < 0.0 { MulPositive(-q, d); }
  }

  /** `this.audioDuration || 1`. */
  function SafeDuration(p: Player): (d: real)
    ensures d > 0.0 || p.duration < 0.0
    ensures p.duration != 0.0 ==> d == p.duration
  {
    if p.duration == 0.0 then 1.0 else p.duration
  }

  /** The play-position step of the frame loop. With a track and a bounding
      box [minX, maxX]: a track that has played to its end is stopped;
      otherwise the playing or paused position, as a fraction of the track,
      is mapped linearly onto the box. */
  function Sync(p: Player, now: real, hasBox: bool, minX: real, maxX: real): (q: Player)
    requires Valid(p)
    ensures Valid(q)
    ensures !(p.hasBuffer && hasBox) ==> q == p
    ensures p.hasBuffer && hasBox && p.playing && now - p.startTime >= p.duration ==> q == Stop(p)
    ensures q.hasContext == p.hasContext && q.hasBuffer == p.hasBuffer && q.duration == p.duration
  {
    if !(p.hasBuffer && hasBox) then p
    else
      var progress :=
        if p.playing then
          (if now - p.startTime >= p.duration then -1.0 else (now - p.startTime) / p.duration)
        else if p.pauseTime > 0.0 then p.pauseTime / p.duration
        else -1.0;
      var stopped := if p.playing && now - p.startTime >= p.duration then Stop(p) else p;
      if progress >= 0.0 then stopped.(playX := minX + progress * (maxX - minX)) else stopped
  }

  /** While the track plays, `uPlayX` sits at the same fraction of the box
      as the elapsed time is of the track. */
  lemma SyncTracksProgress(p: Player, now: real, minX: real, maxX: real)
    requires Valid(p) && p.hasBuffer && p.playing
    requires 0.0 <= now - p.startTime < p.duration
    requires minX <= maxX
    ensures var q := Sync(p, now, true, minX, maxX);
            q.playing && minX <= q.playX <= maxX &&
            (q.playX - minX) * p.duration == (now - p.startTime) * (maxX - minX)
  {
    var t := now - p.startTime;
    var f := t / p.duration;
    assert f * p.duration == t;
    assert 0.0 <= f < 1.0 by {
      if f >= 1.0 { MulNonNegative(f - 1.0, p.duration); }
      if f < 0.0 { MulPositive(-f, p.duration); }
    }
    MulNonNegative(f, maxX - minX);
    MulNonNegative(1.0 - f, maxX - minX);
    assert (f * (maxX - minX)) * p.duration == (f * p.duration) * (maxX - minX);
  }

  /** A paused track inside its length puts `uPlayX` at the paused fraction
      of the box: minX + (pauseTime / duration) * (maxX - minX). */
  lemma SyncPausedInBox(p: Player, now: real, minX: real, maxX: real)
    requires Valid(p) && p.hasBuffer && !p.playing
    requires 0.0 < p.pauseTime <= p.duration
    requires minX <= maxX
    ensures var q := Sync(p, now, true, minX, maxX);
            q == p.(playX := q.playX) && minX <= q.playX <= maxX &&
            (q.playX - minX) * p.duration == p.pauseTime * (maxX - minX)
  {
    var f := p.pauseTime / p.duration;
    assert f * p.duration == p.pauseTime;
    assert 0.0 <= f <= 1.0 by {
      if f > 1.0 { MulPositive(f - 1.0, p.duration); }
      if f < 0.0 { MulPositive(-f, p.duration); }
    }
    MulNonNegative(f, maxX - minX);
    MulNonNegative(1.0 - f, maxX - minX);
    assert (f * (maxX - minX)) * p.duration == (f * p.duration) * (maxX - minX);
  }

  /** A stopped track (not playing, rewound to 0) leaves `uPlayX` alone, so
      the sentinel set by `stopAudio` survives later frames. */
  lemma SyncKeepsSentinel(p: Player, now: real, hasBox: bool, minX: real, maxX: real)
    requires Valid(p) && !p.playing && p.pauseTime == 0.0
    ensures Sync(p, now, hasBox, minX, maxX) == p
  {
  }
}

=== FILE: controls.dfy ===
/** The viewer's tunable shader parameters: the fourteen smoothed scalar
    uniforms and their targets, the six-colour palette, the per-frame
    exponential smoothing that moves each value toward its target, and the
    slider setters that write the targets. `Color.set(hex)` is the parameter
    `parse`; `Math.pow(100, e)` is the parameter `growth`. */
module Controls {
  import opened Vectors
  import opened Wrappers

  /** The smoothed scalar uniforms, in the order the frame loop updates them.
      The same record type holds the current values and the targets. */
  datatype Uniforms = Uniforms(
    lineNear: real, lineFar: real, nodeNear: real, nodeFar: real,
    thinning: real, lineDensity: real, nodeDensity: real,
    xorDensity: real, xorThreshold: real, colorInfluence: real,
    lineOpacity: real, nodeOpacity: real, invertInfluence: real,
    nodeSaturation: real)

  const FieldCount: nat := 14
  /** Position of `nodeOpacity` and `invertInfluence` in `Field`. */
  const NodeOpacityField: nat := 11
  const InvertField: nat := 12

  /** Start-up values; the targets start equal to them. */
  const DefaultUniforms: Uniforms := Uniforms(
    150.0, 1000.0, 150.0, 1000.0, 0.4, 1.0, 1.0, 0.62, 0.0115, 0.9, 0.4, 1.0, 1.0, 0.5)

  /** The frame loop's `lerp` speed and the palette's. */
  const SmoothRate: real := 0.2
  const PaletteRate: real := 0.1

  /** Field k of the record, in declaration order. */
  function Field(u: Uniforms, k: nat): real
    requires k < FieldCount
  {
    match k
    case 0 => u.lineNear
    case 1 => u.lineFar
    case 2 => u.nodeNear
    case 3 => u.nodeFar
    case 4 => u.thinning
    case 5 => u.lineDensity
    case 6 => u.nodeDensity
    case 7 => u.xorDensity
    case 8 => u.xorThreshold
    case 9 => u.colorInfluence
    case 10 => u.lineOpacity
    case 11 => u.nodeOpacity
    case 12 => u.invertInfluence
    case _ => u.nodeSaturation
  }

  /** `lerp(cur, tar, speed)` of the frame loop. */
  function Lerp(cur: real, tar: real, speed: real): real {
    cur + (tar - cur) * speed
  }

  /** The fraction of the remaining gap to the target that one frame leaves:
      0.8 for every field, 0.64 for the two fields the loop lerps twice. */
  function Gap(k: nat): real {
    if k == NodeOpacityField || k == InvertField then 0.64 else 0.8
  }

  /** One frame of smoothing. `uNodeOpacity` and `uInvertInfluence` appear
      twice in the update list, so they take two steps per frame. */
  function Smooth(cur: Uniforms, tar: Uniforms): Uniforms {
    var nodeOpacity := Lerp(cur.nodeOpacity, tar.nodeOpacity, SmoothRate);
    var invert := Lerp(cur.invertInfluence, tar.invertInfluence, SmoothRate);
    Uniforms(
      Lerp(cur.lineNear, tar.lineNear, SmoothRate),
      Lerp(cur.lineFar, tar.lineFar, SmoothRate),
      Lerp(cur.nodeNear, tar.nodeNear, SmoothRate),
      Lerp(cur.nodeFar, tar.nodeFar, SmoothRate),
      Lerp(cur.thinning, tar.thinning, SmoothRate),
      Lerp(cur.lineDensity, tar.lineDensity, SmoothRate),
      Lerp(cur.nodeDensity, tar.nodeDensity, SmoothRate),
      Lerp(cur.xorDensity, tar.xorDensity, SmoothRate),
      Lerp(cur.xorThreshold, tar.xorThreshold, SmoothRate),
      Lerp(cur.colorInfluence, tar.colorInfluence, SmoothRate),
      Lerp(cur.lineOpacity, tar.lineOpacity, SmoothRate),
      Lerp(nodeOpacity, tar.nodeOpacity, SmoothRate),
      Lerp(invert, tar.invertInfluence, SmoothRate),
      Lerp(cur.nodeSaturation, tar.nodeSaturation, SmoothRate))
  }

  lemma SmoothStep(cur: Uniforms, tar: Uniforms, k: nat)
    requires k < FieldCount
    ensures Field(tar, k) - Field(Smooth(cur, tar), k) == (Field(tar, k) - Field(cur, k)) * Gap(k)
  {
  }

  /** Every smoothed value lands between where it was and its target. */
  lemma SmoothBetween(cur: Uniforms, tar: Uniforms, k: nat)
    requires k < FieldCount
    ensures var c := Field(cur, k); var t := Field(tar, k); var r := Field(Smooth(cur, tar), k);
            (c <= r <= t) || (t <= r <= c)
  {
    var c := Field(cur, k);
    var t := Field(tar, k);
    var r := Field(Smooth(cur, tar), k);
    SmoothStep(cur, tar, k);
    if c <= t {
      MulNonNegative(t - c, Gap(k));
      MulNonNegative(t - c, 1.0 - Gap(k));
    } else {
      MulNonNegative(c - t, Gap(k));
      MulNonNegative(c - t, 1.0 - Gap(k));
    }
  }

  /** Once every value has reached its target, smoothing changes nothing. */
  lemma SmoothFixpoint(u: Uniforms)
    ensures Smooth(u, u) == u
  {
  }

  /** n frames of smoothing toward fixed targets. */
  function SmoothFrames(cur: Uniforms, tar: Uniforms, n: nat): Uniforms
    decreases n
  {
    if n == 0 then cur else Smooth(SmoothFrames(cur, tar, n - 1), tar)
  }

  /** A scalar moved n times to within a fraction g of its remaining gap to t. */
  function Approach(c: real, t: real, g: real, n: nat): real
    decreases n
  {
    if n == 0 then c else t - (t - Approach(c, t, g, n - 1)) * g
  }

  lemma {:induction false} ApproachGap(c: real, t: real, g: real, n: nat)
    ensures t - Approach(c, t, g, n) == (t - c) * Pow(g, n)
    decreases n
  {
    if n > 0 {
      ApproachGap(c, t, g, n - 1);
      ScaleGap(t - Approach(c, t, g, n - 1), t - c, Pow(g, n - 1), g);
    }
  }

  /** One more factor g on a gap that is already (t - c) * p. */
  lemma ScaleGap(gap: real, d: real, p: real, g: real)
    requires gap == d * p
    ensures gap * g == d * (g * p)
  {
  }

  /** Field k after n frames is the scalar approach with that field's gap. */
  lemma {:induction false} SmoothFramesField(cur: Uniforms, tar: Uniforms, n: nat, k: nat)
    requires k < FieldCount
    ensures Field(SmoothFrames(cur, tar, n), k) == Approach(Field(cur, k), Field(tar, k), Gap(k), n)
    decreases n
  {
    if n > 0 {
      SmoothFramesField(cur, tar, n - 1, k);
      SmoothStep(SmoothFrames(cur, tar, n - 1), tar, k);
    }
  }

  /** After n frames the gap to the target has shrunk geometrically:
      by 0.8^n, or 0.64^n for the twice-lerped fields. */
  lemma {:induction false} SmoothFramesGap(cur: Uniforms, tar: Uniforms, n: nat, k: nat)
    requires k < FieldCount
    ensures Field(tar, k) - Field(SmoothFrames(cur, tar, n), k)
         == (Field(tar, k) - Field(cur, k)) * Pow(Gap(k), n)
  {
    SmoothFramesField(cur, tar, n, k);
    GapAfter(Field(cur, k), Field(tar, k), Field(SmoothFrames(cur, tar, n), k), Gap(k), n);
  }

  lemma {:induction false} GapAfter(c: real, t: real, x: real, g: real, n: nat)
    requires x == Approach(c, t, g, n)
    ensures t - x == (t - c) * Pow(g, n)
  {
    ApproachGap(c, t, g, n);
  }

  /** `setInvertInfluence`: writes the same value to the target and to the
      current uniform, so the change shows without a fade. */
  function SetInvertInfluence(cur: Uniforms, tar: Uniforms, enabled: bool): (r: (Uniforms, Uniforms))
    ensures r.0.invertInfluence == r.1.invertInfluence == (if enabled then 1.0 else 0.0)
    ensures r.0 == cur.(invertInfluence := r.0.invertInfluence)
    ensures r.1 == tar.(invertInfluence := r.1.invertInfluence)
  {
    var value := if enabled then 1.0 else 0.0;
    (cur.(invertInfluence := value), tar.(invertInfluence := value))
  }

  /** The next frame keeps the value just set, for all that it lerps it twice. */
  lemma InvertInfluenceHolds(cur: Uniforms, tar: Uniforms, enabled: bool)
    ensures var (c, t) := SetInvertInfluence(cur, tar, enabled);
            Smooth(c, t).invertInfluence == (if enabled then 1.0 else 0.0)
  {
    var (c, t) := SetInvertInfluence(cur, tar, enabled);
    SmoothStep(c, t, InvertField);
  }

  /** A slider position 0..100 mapped onto a fade-start distance 2..150. */
  function FadeNear(dist: real): (near: real)
    ensures 0.0 <= dist <= 100.0 ==> 2.0 <= near <= 150.0
    ensures dist == 0.0 ==> near == 2.0
    ensures dist == 100.0 ==> near == 150.0
  {
    2.0 + (dist / 100.0) * 148.0
  }

  /** A further slider position never fades sooner. */
  lemma FadeNearMonotone(d1: real, d2: real)
    requires d1 <= d2
    ensures FadeNear(d1) <= FadeNear(d2)
  {
  }

  /** `setLineDist`: the line fade starts at `FadeNear(dist)` and ends half as
      far again; no other target moves. */
  function SetLineDist(tar: Uniforms, dist: real): (r: Uniforms)
    ensures r.lineNear == FadeNear(dist) && r.lineFar == 1.5 * r.lineNear
    ensures r == tar.(lineNear := r.lineNear, lineFar := r.lineFar)
  {
    var near := FadeNear(dist);
    tar.(lineNear := near, lineFar := near * 1.5)
  }

  /** `setNodeDist`: the same mapping for the point cloud. */
  function SetNodeDist(tar: Uniforms, dist: real): (r: Uniforms)
    ensures r.nodeNear == FadeNear(dist) && r.nodeFar == 1.5 * r.nodeNear
    ensures r == tar.(nodeNear := r.nodeNear, nodeFar := r.nodeFar)
  {
    var near := FadeNear(dist);
    tar.(nodeNear := near, nodeFar := near * 1.5)
  }

  /** `setLineDensity`: a percentage slider to a fraction. */
  function SetLineDensity(tar: Uniforms, val: real): (r: Uniforms)
    ensures r.lineDensity * 100.0 == val
    ensures 0.0 <= val <= 100.0 ==> 0.0 <= r.lineDensity <= 1.0
    ensures r == tar.(lineDensity := r.lineDensity)
  {
    tar.(lineDensity := val / 100.0)
  }

  /** `setNodeDensity`: as `setLineDensity`, for points. */
  function SetNodeDensity(tar: Uniforms, val: real): (r: Uniforms)
    ensures r.nodeDensity * 100.0 == val
    ensures 0.0 <= val <= 100.0 ==> 0.0 <= r.nodeDensity <= 1.0
    ensures r == tar.(nodeDensity := r.nodeDensity)
  {
    tar.(nodeDensity := val / 100.0)
  }

  const XorFloor: real := 0.008
  const XorKnee: real := 33.0
  const ThresholdFloor: real := 0.005

  /** The XOR line opacity for a slider value: a quadratic ramp from 0.008
      up to the knee at 33, then `0.068 + 0.1 * 100^((val - 33) / 67)`,
      where `growth` stands for that power. */
  function XorOpacity(val: real, growth: real): (o: real)
    ensures 0.0 <= val <= XorKnee ==> XorFloor <= o <= 0.068
    ensures val == 0.0 ==> o == XorFloor
    ensures val == XorKnee ==> o == 0.068
    ensures val > XorKnee ==> o == 0.068 + 0.1 * growth
  {
    if val <= XorKnee then
      var q := val / XorKnee;
      assert 0.0 <= val ==> 0.0 <= q * q <= 1.0 by {
        if 0.0 <= val {
          MulNonNegative(q, q);
          MulNonNegative(1.0 - q, 1.0 + q);
        }
      }
      XorFloor + (q * q) * 0.06
    else
      0.068 + 0.1 * growth
  }

  /** On the quadratic ramp a larger slider value never gives less opacity. */
  lemma XorOpacityMonotone(v1: real, v2: real, g1: real, g2: real)
    requires 0.0 <= v1 <= v2 <= XorKnee
    ensures XorOpacity(v1, g1) <= XorOpacity(v2, g2)
  {
    var q1 := v1 / XorKnee;
    var q2 := v2 / XorKnee;
    assert q1 <= q2;
    SquareMonotone(q1, q2);
  }

  /** The opacity jumps at the knee: just past 33 the power is above 1, so
      the value exceeds 0.168, while the ramp stops at 0.068. */
  lemma XorOpacityJump(below: real, above: real, growth: real, g: real)
    requires 0.0 <= below <= XorKnee < above
    requires growth > 1.0
    ensures XorOpacity(above, growth) > 0.168
    ensures XorOpacity(above, growth) - XorOpacity(below, g) > 0.1
  {
  }

  /** The XOR seed threshold: a 5% share of the slider, never below 0.005. */
  function XorThreshold(val: real): (t: real)
    ensures t >= ThresholdFloor
    ensures t * 2000.0 >= val
    ensures t == ThresholdFloor || t * 2000.0 == val
  {
    var share := (val / 100.0) * 0.05;
    if share > ThresholdFloor then share else ThresholdFloor
  }

  lemma XorThresholdMonotone(v1: real, v2: real)
    requires v1 <= v2
    ensures XorThreshold(v1) <= XorThreshold(v2)
  {
  }

  /** `setXorDensity`: writes the opacity and threshold targets only. */
  function SetXorDensity(tar: Uniforms, val: real, growth: real): (r: Uniforms)
    ensures r.xorDensity == XorOpacity(val, growth)
    ensures r.xorThreshold == XorThreshold(val)
    ensures r == tar.(xorDensity := r.xorDensity, xorThreshold := r.xorThreshold)
  {
    tar.(xorDensity := XorOpacity(val, growth), xorThreshold := XorThreshold(val))
  }

  /** One frame of palette smoothing: each colour moves 10% toward its target. */
  function SmoothPalette(cur: seq<Vec3>, tar: seq<Vec3>): (r: seq<Vec3>)
    requires |cur| == |tar|
    ensures |r| == |cur|
    ensures forall i :: 0 <= i < |r| ==>
              Sub(tar[i], r[i]) == Scale(Sub(tar[i], cur[i]), 1.0 - PaletteRate)
  {
    seq(|cur|, i requires 0 <= i < |cur| => MixV(cur[i], tar[i], PaletteRate))
  }

  /** The names the palette menu offers. */
  const PaletteNames: seq<string> :=
    ["classic", "stockholm", "copenhagen", "helsinki", "berlin", "kyoto", "brooklyn", "malmo"]

  /** The palette table: six hex colours per name. */
  function PaletteTable(name: string): Option<seq<string>> {
    if name == "classic" then Some(["#ff0000", "#ffff00", "#00ff00", "#00ffff", "#0000ff", "#ff00ff"])
    else if name == "stockholm" then Some(["#2E3440", "#4C566A", "#81A1C1", "#88C0D0", "#8FBCBB", "#ECEFF4"])
    else if name == "copenhagen" then Some(["#4A4E69", "#9A8C98", "#C9ADA7", "#F2E9E4", "#22223B", "#822100"])
    else if name == "helsinki" then Some(["#001219", "#005F73", "#0A9396", "#94D2BD", "#E9D8A6", "#EE9B00"])
    else if name == "berlin" then Some(["#2B2D42", "#8D99AE", "#EDF2F4", "#EF233C", "#D90429", "#FFD700"])
    else if name == "kyoto" then Some(["#2D3142", "#4F5D75", "#BFC0C0", "#FFFFFF", "#EF8354", "#84A59D"])
    else if name == "brooklyn" then Some(["#355070", "#6D597A", "#B56576", "#E56B6F", "#EAAC8B", "#FFB700"])
    else if name == "malmo" then Some(["#003049", "#669BBC", "#FDF0D5", "#C1121F", "#780000", "#F4A261"])
    else None
  }

  /** The table knows exactly the menu's names, each with six colours. */
  lemma PaletteTableShape(name: string)
    ensures PaletteTable(name).Some? <==> name in PaletteNames
    ensures PaletteTable(name).Some? ==> |PaletteTable(name).value| == 6
  {
  }

  /** `setPalette(name)`: the six target colours parsed from the named
      palette, or from the classic one when the name is unknown. */
  function SetPalette(name: string, parse: string -> Vec3): (pal: seq<Vec3>)
    ensures |pal| == 6
    ensures name in PaletteNames ==>
              forall i :: 0 <= i < 6 ==> pal[i] == parse(PaletteTable(name).value[i])
    ensures name !in PaletteNames ==>
              forall i :: 0 <= i < 6 ==> pal[i] == parse(PaletteTable("classic").value[i])
  {
    PaletteTableShape(name);
    var hexes := match PaletteTable(name)
      case Some(hs) => hs
      case None => PaletteTable("classic").value;
    seq(6, i requires 0 <= i < 6 => parse(hexes[i]))
  }
}

=== FILE: deformation.dfy ===
/** The vertex-shader deformation field: the spine offset read from the
    exported chain (`getSpineOffset`), the audio "bounce" that pushes points
    radially away from the x axis near the playback position, and the way
    the point and line shaders add these to a vertex. The simplex-noise warp
    (`getSoupOffset`) is an input, `soup`. GLSL `length` is not computed:
    callers pass `rLen`, the length of (0, y, z). */
module Deformation {
  import opened Vectors

  /** Constants hard-coded in the shader for the default 20-body, 50-long chain. */
  const SpineSlots: nat := 20
  const SpineStep: real := 50.0 / 19.0
  const SpineHalf: real := 25.0
  /** Audio levels at or below this leave the geometry alone. */
  const NoiseFloor: real := 0.01
  /** `uPlayX` values at or below this mean "not playing". */
  const PlayCutoff: real := -9000.0
  const BounceGain: real := 8.0
  const BounceRadius: real := 3.0

  /** The spine at rest: slot k holds (-25 + k * 50/19, 0, 0). */
  function RestSpine(): (s: seq<Vec3>)
    ensures |s| == SpineSlots
    ensures s[0] == Vec3(-SpineHalf, 0.0, 0.0) && s[19] == Vec3(SpineHalf, 0.0, 0.0)
  {
    seq(SpineSlots, k requires 0 <= k < SpineSlots => Vec3(-SpineHalf + k as real * SpineStep, 0.0, 0.0))
  }

  /** `getSpineOffset(x)` as written: the bracketing slot comes from GLSL
      `int()`, which truncates toward zero. */
  function SpineOffset(spine: seq<Vec3>, x: real): Vec3
    requires |spine| == SpineSlots
  {
    var idx := (x + SpineHalf) / SpineStep;
    var i := Trunc(idx);
    var f := Fract(idx);
    if i < 0 then Zero
    else if i >= 19 then Sub(spine[19], Vec3(SpineHalf, 0.0, 0.0))
    else Sub(MixV(spine[i], spine[i + 1], f), Vec3(x, 0.0, 0.0))
  }

  /** `getSpineOffset(x)` with the slot taken by `floor`, so that every x
      left of the chain gets no offset, as the shader's own comment says. */
  function SpineOffsetFloor(spine: seq<Vec3>, x: real): (r: Vec3)
    requires |spine| == SpineSlots
    ensures x < -SpineHalf ==> r == Zero
    ensures x >= SpineHalf ==> r == Sub(spine[19], Vec3(SpineHalf, 0.0, 0.0))
  {
    var idx := (x + SpineHalf) / SpineStep;
    var i := Floor(idx);
    var f := Fract(idx);
    assert x >= SpineHalf ==> idx >= 19.0;
    if i < 0 then Zero
    else if i >= 19 then Sub(spine[19], Vec3(SpineHalf, 0.0, 0.0))
    else Sub(MixV(spine[i], spine[i + 1], f), Vec3(x, 0.0, 0.0))
  }

  /** The as-written offset of a resting spine is not zero just left of the
      chain: there `int()` rounds the negative slot up to 0 and `fract`
      interpolates one full step ahead, so the point is dragged 50/19 along x. */
  lemma SpineOffsetRestLeftGap(x: real)
    requires -SpineHalf - SpineStep < x < -SpineHalf
    ensures SpineOffset(RestSpine(), x) == Vec3(SpineStep, 0.0, 0.0)
  {
    var idx := (x + SpineHalf) / SpineStep;
    assert -1.0 < idx < 0.0;
    assert Trunc(idx) == 0;
    assert Floor(idx) == -1;
    assert Fract(idx) == idx + 1.0;
    var sp := RestSpine();
    assert sp[0] == Vec3(-SpineHalf, 0.0, 0.0);
    assert sp[1] == Vec3(-SpineHalf + SpineStep, 0.0, 0.0);
    assert idx * SpineStep == x + SpineHalf;
  }

  /** A concrete instance: at x = -26 a resting spine moves the point by 50/19. */
  lemma SpineOffsetRestAtMinus26()
    ensures SpineOffset(RestSpine(), -26.0) != Zero
  {
    SpineOffsetRestLeftGap(-26.0);
  }

  /** Interpolating the resting spine at slot i with fraction f gives back x. */
  lemma RestInterpolation(i: int, x: real)
    requires 0 <= i < 19
    requires i as real <= (x + SpineHalf) / SpineStep < i as real + 1.0
    ensures Sub(MixV(RestSpine()[i], RestSpine()[i + 1], (x + SpineHalf) / SpineStep - i as real),
                Vec3(x, 0.0, 0.0)) == Zero
  {
    var idx := (x + SpineHalf) / SpineStep;
    assert idx * SpineStep == x + SpineHalf;
  }

  /** With the floor-based slot, a resting spine gives no offset anywhere. */
  lemma SpineOffsetFloorRestIsZero(x: real)
    ensures SpineOffsetFloor(RestSpine(), x) == Zero
  {
    var idx := (x + SpineHalf) / SpineStep;
    var i := Floor(idx);
    if 0 <= i < 19 {
      RestInterpolation(i, x);
    }
  }

  /** For any spine, the as-written and the floor-based offsets agree
      everywhere except in the one-step gap left of the chain: at or right
      of -25 the slot is not negative, so truncation is floor, and at or left
      of -25 - 50/19 both slots are negative. */
  lemma SpineOffsetAgreesOutsideGap(spine: seq<Vec3>, x: real)
    requires |spine| == SpineSlots
    requires x >= -SpineHalf || x <= -SpineHalf - SpineStep
    ensures SpineOffset(spine, x) == SpineOffsetFloor(spine, x)
  {
    var idx := (x + SpineHalf) / SpineStep;
    assert idx * SpineStep == x + SpineHalf;
    if x >= -SpineHalf {
      assert idx >= 0.0;
      assert Trunc(idx) == Floor(idx);
    } else {
      assert idx <= -1.0;
      assert Trunc(idx) < 0 && Floor(idx) < 0;
    }
  }

  /** The as-written offset of a resting spine is zero exactly outside the
      one-step gap left of the chain. */
  lemma SpineOffsetRestZeroOutsideGap(x: real)
    requires x >= -SpineHalf || x <= -SpineHalf - SpineStep
    ensures SpineOffset(RestSpine(), x) == Zero
  {
    SpineOffsetAgreesOutsideGap(RestSpine(), x);
    SpineOffsetFloorRestIsZero(x);
  }

  /** At the knot of slot k the offset is exactly how far body k has moved
      from its resting place. */
  lemma SpineOffsetAtKnot(spine: seq<Vec3>, k: nat)
    requires |spine| == SpineSlots && k < SpineSlots
    ensures SpineOffset(spine, -SpineHalf + k as real * SpineStep) == Sub(spine[k], RestSpine()[k])
    ensures SpineOffsetFloor(spine, -SpineHalf + k as real * SpineStep) == Sub(spine[k], RestSpine()[k])
  {
    var x := -SpineHalf + k as real * SpineStep;
    var idx := (x + SpineHalf) / SpineStep;
    assert idx == k as real;
    assert Floor(idx) == k;
    assert Trunc(idx) == k;
    assert Fract(idx) == 0.0;
  }

  /** `smoothstep(3.0, 0.0, dist)`: 1 at the play position, 0 from 3 units on. */
  function Influence(dist: real): (r: real)
    ensures 0.0 <= r <= 1.0
    ensures dist >= BounceRadius ==> r == 0.0
    ensures dist == 0.0 ==> r == 1.0
    ensures 0.0 <= dist < BounceRadius ==> r > 0.0
  {
    InfluenceArgument(dist);
    Smoothstep(BounceRadius, 0.0, dist)
  }

  /** Closer than the bounce radius, smoothstep's normalised argument is positive. */
  lemma InfluenceArgument(dist: real)
    ensures 0.0 <= dist < BounceRadius ==> (dist - BounceRadius) / (0.0 - BounceRadius) > 0.0
  {
    if 0.0 <= dist < BounceRadius {
      DivUnique(BounceRadius - dist, BounceRadius, (BounceRadius - dist) / BounceRadius);
      assert (dist - BounceRadius) / (0.0 - BounceRadius) == (BounceRadius - dist) / BounceRadius;
    }
  }

  /** The audio bounce: `radial * uAudioLevel * influence * 8.0` when the
      level is above the noise floor and a play position is set. */
  function Bounce(pos: Vec3, level: real, playX: real, rLen: real): (b: Vec3)
    requires rLen >= 0.0 && rLen * rLen == pos.y * pos.y + pos.z * pos.z
    ensures b.x == 0.0
    ensures level <= NoiseFloor || playX <= PlayCutoff || Abs(pos.x - playX) >= BounceRadius ==> b == Zero
    ensures rLen > 0.001 ==> b.y * pos.z == b.z * pos.y
    ensures level >= 0.0 && rLen > 0.001 ==> b.y * pos.y + b.z * pos.z >= 0.0
    ensures level >= 0.0 ==> b.y * b.y + b.z * b.z <= (BounceGain * level) * (BounceGain * level)
    ensures level > NoiseFloor && playX > PlayCutoff ==>
      b.y * b.y + b.z * b.z == Amount(level, pos.x, playX) * Amount(level, pos.x, playX)
  {
    if level > NoiseFloor && playX > PlayCutoff then
      var infl := Influence(Abs(pos.x - playX));
      var m := Amount(level, pos.x, playX);
      BounceWithin(level, infl, m);
      Radial(pos, rLen, m)
    else
      Zero
  }

  /** The bounce length the shader asks for: `uAudioLevel * influence * 8.0`. */
  function Amount(level: real, x: real, playX: real): real {
    level * Influence(Abs(x - playX)) * BounceGain
  }

  /** `uAudioLevel * influence * 8.0` lies in [0, 8 * level] when the
      influence lies in [0, 1], and vanishes with the influence. */
  lemma BounceWithin(level: real, infl: real, m: real)
    requires level >= 0.0 && 0.0 <= infl <= 1.0
    requires m == level * infl * BounceGain
    ensures 0.0 <= m <= BounceGain * level
    ensures m * m <= (BounceGain * level) * (BounceGain * level)
    ensures infl == 0.0 ==> m == 0.0
  {
    MulNonNegative(level, infl);
    MulNonNegative(level, 1.0 - infl);
    assert level * infl <= level;
    SquareMonotone(m, BounceGain * level);
  }

  /** The unit direction away from the x axis (up when the point is on the
      axis), scaled by m. */
  function Radial(pos: Vec3, rLen: real, m: real): (b: Vec3)
    requires rLen >= 0.0 && rLen * rLen == pos.y * pos.y + pos.z * pos.z
    requires m >= 0.0
    ensures b.x == 0.0
    ensures m == 0.0 ==> b == Zero
    ensures rLen > 0.001 ==> b.y * pos.z == b.z * pos.y
    ensures rLen > 0.001 ==> b.y * pos.y + b.z * pos.z >= 0.0
    ensures b.y * b.y + b.z * b.z == m * m
  {
    if rLen > 0.001 then
      UnitScaled(pos.y, pos.z, rLen, m);
      Scale(Vec3(0.0, pos.y / rLen, pos.z / rLen), m)
    else
      Scale(Vec3(0.0, 1.0, 0.0), m)
  }

  lemma Cancel(a: real, b: real, c: real)
    requires c > 0.0
    requires a * c == b * c
    ensures a == b
  {
    assert (a - b) * c == 0.0;
  }
  lemma SqOfProd(u: real, r: real, y: real, c: real)
    requires u * r == y && c == r * r
    ensures (u * u) * c == y * y
  {
    calc {
      (u * u) * c;
      (u * u) * (r * r);
      (u * r) * (u * r);
      y * y;
    }
  }
  /** (y, z) / r is a unit vector when r is the length of (y, z). */
  lemma UnitSquare(y: real, z: real, r: real)
    requires r > 0.0 && r * r == y * y + z * z
    ensures (y / r) * (y / r) + (z / r) * (z / r) == 1.0
  {
    var c := r * r;
    calc { c; == r * r; > 0.0 * r; == 0.0; }
    var u := y / r;
    var v := z / r;
    SqOfProd(u, r, y, c);
    SqOfProd(v, r, z, c);
    var w := u * u + v * v;
    calc {
      w * c;
      (u * u) * c + (v * v) * c;
      y * y + z * z;
      c;
      1.0 * c;
    }
    Cancel(w, 1.0, c);
  }
  /** Scaling the unit vector (y, z) / r by m gives an outward vector of length m. */
  lemma UnitScaled(y: real, z: real, r: real, m: real)
    requires r > 0.0 && r * r == y * y + z * z
    ensures (y / r * m) * z == (z / r * m) * y
    ensures m >= 0.0 ==> (y / r * m) * y + (z / r * m) * z >= 0.0
    ensures (y / r * m) * (y / r * m) + (z / r * m) * (z / r * m) == m * m
  {
    var u := y / r;
    var v := z / r;
    UnitSquare(y, z, r);
    calc {
      (u * m) * (u * m) + (v * m) * (v * m);
      (u * u + v * v) * (m * m);
      1.0 * (m * m);
    }
    assert u * r == y && v * r == z;
    calc {
      (u * m) * z;
      (u * m) * (v * r);
      (v * m) * (u * r);
      (v * m) * y;
    }
    if m >= 0.0 {
      calc {
        (u * m) * y + (v * m) * z;
        m * (u * y + v * z);
        m * ((u * u + v * v) * r);
        m * r;
      }
      assert m * r >= 0.0;
    }
  }

  /** Vertex displacement of the line shaders: noise warp, then the
      as-written spine offset sampled at the warped x, then the bounce. With
      `playX` bound to `uPlayX` this is the standard line shader; the XOR
      line shader is `DisplaceXorLine`. */
  function DisplaceLine(pos: Vec3, soup: Vec3, spine: seq<Vec3>,
                        level: real, playX: real, rLen: real): Vec3
    requires |spine| == SpineSlots
    requires rLen >= 0.0 && rLen * rLen == pos.y * pos.y + pos.z * pos.z
  {
    var warped := Add(pos, soup);
    var bent := Add(warped, SpineOffset(spine, warped.x));
    Add(bent, Bounce(pos, level, playX, rLen))
  }

  /** Vertex displacement of the XOR line shader as written: its material
      never binds `uPlayX`, so the shader reads the uniform's default 0 and
      bounces around x = 0 whatever the playback position. */
  function DisplaceXorLine(pos: Vec3, soup: Vec3, spine: seq<Vec3>,
                           level: real, rLen: real): Vec3
    requires |spine| == SpineSlots
    requires rLen >= 0.0 && rLen * rLen == pos.y * pos.y + pos.z * pos.z
  {
    DisplaceLine(pos, soup, spine, level, 0.0, rLen)
  }

  /** Vertex displacement of the point shader: the bounce is applied first,
      in `begin_vertex`, then the noise warp and the spine offset. */
  function DisplacePoint(pos: Vec3, soup: Vec3, spine: seq<Vec3>,
                         level: real, playX: real, rLen: real): Vec3
    requires |spine| == SpineSlots
    requires rLen >= 0.0 && rLen * rLen == pos.y * pos.y + pos.z * pos.z
  {
    var bounced := Add(pos, Bounce(pos, level, playX, rLen));
    var warped := Add(bounced, soup);
    Add(warped, SpineOffset(spine, warped.x))
  }

  /** The point shader of audio-sourced geometry as written: it repeats the
      bounce block after the spine offset, so the bounce is added twice. */
  function DisplaceAudioPoint(pos: Vec3, soup: Vec3, spine: seq<Vec3>,
                              level: real, playX: real, rLen: real): Vec3
    requires |spine| == SpineSlots
    requires rLen >= 0.0 && rLen * rLen == pos.y * pos.y + pos.z * pos.z
  {
    var once := DisplacePoint(pos, soup, spine, level, playX, rLen);
    Add(once, Bounce(pos, level, playX, rLen))
  }

  /** Given the same warp and play position, points and lines deform
      identically: the bounce has no x part, so the spine is sampled at the
      same x whichever comes first. The shaders do not always share the
      warp: the line materials never bind `uTime`, so their noise is frozen
      at time 0 while the points' noise follows the clock. */
  lemma PointMatchesLine(pos: Vec3, soup: Vec3, spine: seq<Vec3>,
                         level: real, playX: real, rLen: real)
    requires |spine| == SpineSlots
    requires rLen >= 0.0 && rLen * rLen == pos.y * pos.y + pos.z * pos.z
    ensures DisplacePoint(pos, soup, spine, level, playX, rLen)
         == DisplaceLine(pos, soup, spine, level, playX, rLen)
  {
    var b := Bounce(pos, level, playX, rLen);
    assert Add(Add(pos, b), soup).x == Add(pos, soup).x;
  }

  /** The audio-path point shader moves a vertex by the line displacement
      plus a second bounce; at the play position, with level 0.5, a point at
      (0, 1, 0) is pushed 8 units instead of 4. */
  lemma AudioPointBounceTwice(pos: Vec3, soup: Vec3, spine: seq<Vec3>,
                              level: real, playX: real, rLen: real)
    requires |spine| == SpineSlots
    requires rLen >= 0.0 && rLen * rLen == pos.y * pos.y + pos.z * pos.z
    ensures DisplaceAudioPoint(pos, soup, spine, level, playX, rLen)
         == Add(DisplaceLine(pos, soup, spine, level, playX, rLen), Bounce(pos, level, playX, rLen))
    ensures Bounce(Vec3(0.0, 1.0, 0.0), 0.5, 0.0, 1.0) == Vec3(0.0, 4.0, 0.0)
  {
    PointMatchesLine(pos, soup, spine, level, playX, rLen);
    assert Influence(0.0) == 1.0;
  }

  /** With the spine at rest and no audio above the floor, a vertex whose
      warped x lies outside the one-step gap left of the chain moves by the
      noise warp alone. */
  lemma RestAndSilentIsWarpOnly(pos: Vec3, soup: Vec3, level: real, playX: real, rLen: real)
    requires rLen >= 0.0 && rLen * rLen == pos.y * pos.y + pos.z * pos.z
    requires level <= NoiseFloor || playX <= PlayCutoff
    requires Add(pos, soup).x >= -SpineHalf || Add(pos, soup).x <= -SpineHalf - SpineStep
    ensures DisplaceLine(pos, soup, RestSpine(), level, playX, rLen) == Add(pos, soup)
    ensures DisplacePoint(pos, soup, RestSpine(), level, playX, rLen) == Add(pos, soup)
  {
    SpineOffsetRestZeroOutsideGap(Add(pos, soup).x);
    PointMatchesLine(pos, soup, RestSpine(), level, playX, rLen);
  }

  /** Inside that gap the same resting, silent shader drags the vertex
      50/19 along x, the as-written `int()` slot at work. */
  lemma RestAndSilentInGap(pos: Vec3, soup: Vec3, level: real, playX: real, rLen: real)
    requires rLen >= 0.0 && rLen * rLen == pos.y * pos.y + pos.z * pos.z
    requires level <= NoiseFloor || playX <= PlayCutoff
    requires -SpineHalf - SpineStep < Add(pos, soup).x < -SpineHalf
    ensures DisplaceLine(pos, soup, RestSpine(), level, playX, rLen) == Add(Add(pos, soup), Vec3(SpineStep, 0.0, 0.0))
    ensures DisplacePoint(pos, soup, RestSpine(), level, playX, rLen) == Add(Add(pos, soup), Vec3(SpineStep, 0.0, 0.0))
  {
    SpineOffsetRestLeftGap(Add(pos, soup).x);
    PointMatchesLine(pos, soup, RestSpine(), level, playX, rLen);
  }

  /** With `uPlayX` bound, a stopped track (`uPlayX` at or below the cutoff)
      leaves a line vertex at its warped, spine-bent position, however loud
      the decaying level still is. */
  lemma LineStillWhenStopped(pos: Vec3, soup: Vec3, spine: seq<Vec3>,
                             level: real, playX: real, rLen: real)
    requires |spine| == SpineSlots
    requires rLen >= 0.0 && rLen * rLen == pos.y * pos.y + pos.z * pos.z
    requires playX <= PlayCutoff
    ensures DisplaceLine(pos, soup, spine, level, playX, rLen)
         == Add(Add(pos, soup), SpineOffset(spine, Add(pos, soup).x))
  {
    assert Bounce(pos, level, playX, rLen) == Zero;
  }

  /** As written, the XOR line ignores the stop: while the level is above
      the floor, a vertex within the bounce radius of x = 0 is pushed off
      the axis by a non-zero bounce that the standard line does not get. */
  lemma XorLineBouncesWhenStopped(pos: Vec3, soup: Vec3, spine: seq<Vec3>,
                                  level: real, playX: real, rLen: real)
    requires |spine| == SpineSlots
    requires rLen >= 0.0 && rLen * rLen == pos.y * pos.y + pos.z * pos.z
    requires level > NoiseFloor && playX <= PlayCutoff && Abs(pos.x) < BounceRadius
    ensures DisplaceXorLine(pos, soup, spine, level, rLen)
         == Add(DisplaceLine(pos, soup, spine, level, playX, rLen), Bounce(pos, level, 0.0, rLen))
    ensures Bounce(pos, level, 0.0, rLen) != Zero
  {
    LineStillWhenStopped(pos, soup, spine, level, playX, rLen);
    assert Abs(pos.x - 0.0) == Abs(pos.x);
    var infl := Influence(Abs(pos.x));
    assert infl > 0.0;
    MulPositive(level, infl);
    MulPositive(level * infl, BounceGain);
    var m := Amount(level, pos.x, 0.0);
    assert m > 0.0;
    SquarePositive(m);
    var b := Bounce(pos, level, 0.0, rLen);
    assert b.y * b.y + b.z * b.z > 0.0;
  }

  /** On the axis plane at x = 0, after a stop: the XOR copy of the vertex
      (0, y, 0) on a resting spine is lifted by the full 8 * level (to
      (0, 5, 0) for y = 1 and level 0.5), while the standard copy stays put. */
  lemma XorLineAtSentinel(x: real, y: real, level: real, playX: real)
    requires x == 0.0 && y > 0.001
    requires level > NoiseFloor && playX <= PlayCutoff
    ensures DisplaceXorLine(Vec3(x, y, 0.0), Zero, RestSpine(), level, y) == Vec3(0.0, y + BounceGain * level, 0.0)
    ensures DisplaceLine(Vec3(x, y, 0.0), Zero, RestSpine(), level, playX, y) == Vec3(0.0, y, 0.0)
  {
    var p := Vec3(x, y, 0.0);
    assert Add(p, Zero) == p;
    SpineOffsetRestZeroOutsideGap(x);
    assert Add(p, SpineOffset(RestSpine(), x)) == p;
    assert Abs(x - 0.0) == 0.0;
    assert Influence(Abs(x - 0.0)) == 1.0;
    assert y / y == 1.0;
    assert Bounce(p, level, 0.0, y) == Vec3(0.0, BounceGain * level, 0.0);
    assert Bounce(p, level, playX, y) == Zero;
  }
}

=== FILE: physics.dfy ===
/** The physics spine of `PhysicsWorld`: a path of point masses spread evenly
    along the x axis, pinned at both ends, joined by springs, kicked by the
    audio level near the playback position, and exported as a flat array of
    coordinates for the shaders. The rigid-body integrator of the physics
    library (spring forces, damping, the fixed-step accumulator) is outside
    the model: `Update` receives the positions it produced. */
module Physics {
  import opened Vectors
  import opened Wrappers

  const DefaultLength: real := 50.0
  const DefaultCount: nat := 20
  const BodyRadius: real := 0.5
  const BodyDamping: real := 0.5
  const SpringStiffness: real := 100.0
  const SpringDamping: real := 4.0
  /** Newtons of push per unit of audio level. */
  const ForceScale: real := 500.0

  datatype Body = Body(position: Vec3, mass: real, radius: real,
                       linearDamping: real, angularDamping: real, force: Vec3)

  /** A spring between bodies `bodyA` and `bodyB` (indices into the chain). */
  datatype Spring = Spring(bodyA: nat, bodyB: nat, restLength: real,
                           stiffness: real, damping: real)

  datatype Chain = Chain(bodies: seq<Body>, springs: seq<Spring>)

  datatype World = World(length: real, count: nat, stepSize: real,
                         bodies: seq<Body>, springs: seq<Spring>,
                         spinePositions: seq<real>)

  function StepSize(length: real, count: nat): real
    requires count >= 2
  {
    length / (count - 1) as real
  }

  /** Mass of body i: the two ends are anchored (mass 0, immovable). */
  function MassAt(count: nat, i: nat): real {
    if i == 0 || i == count - 1 then 0.0 else 1.0
  }

  /** x coordinate of body i when the chain is at rest. */
  function RestX(length: real, count: nat, i: int): real
    requires count >= 2
  {
    i as real * StepSize(length, count) - length / 2.0
  }

  function RestSpring(k: nat, stepSize: real): Spring {
    Spring(k, k + 1, stepSize, SpringStiffness, SpringDamping)
  }

  /** The chain after the first n iterations of the construction loop. */
  function InitSpine(length: real, count: nat, n: nat): (c: Chain)
    requires 2 <= count && n <= count
    ensures |c.bodies| == n
    ensures |c.springs| == if n == 0 then 0 else n - 1
    ensures forall i :: 0 <= i < n ==>
      c.bodies[i].position == Vec3(RestX(length, count, i), 0.0, 0.0)
      && c.bodies[i].mass == MassAt(count, i)
      && c.bodies[i].force == Zero
    ensures forall k :: 0 <= k < |c.springs| ==>
      c.springs[k] == RestSpring(k, StepSize(length, count))
  {
    if n == 0 then Chain([], [])
    else
      var prev := InitSpine(length, count, n - 1);
      var i := n - 1;
      var x := i as real * StepSize(length, count) - length / 2.0;
      var mass := if i == 0 || i == count - 1 then 0.0 else 1.0;
      var body := Body(Vec3(x, 0.0, 0.0), mass, BodyRadius, BodyDamping, BodyDamping, Zero);
      var springs :=
        if i > 0 then prev.springs + [Spring(i - 1, i, StepSize(length, count), SpringStiffness, SpringDamping)]
        else prev.springs;
      assert body.position == Vec3(RestX(length, count, i), 0.0, 0.0) && body.mass == MassAt(count, i);
      assert i > 0 ==> springs[i - 1] == RestSpring(i - 1, StepSize(length, count));
      Chain(prev.bodies + [body], springs)
  }

  /** What construction establishes and every later operation keeps. */
  predicate Valid(w: World) {
    && w.count >= 2
    && w.stepSize == StepSize(w.length, w.count)
    && |w.bodies| == w.count
    && |w.springs| == w.count - 1
    && |w.spinePositions| == 3 * w.count
    && (forall i :: 0 <= i < w.count ==> w.bodies[i].mass == MassAt(w.count, i))
    && (forall k :: 0 <= k < w.count - 1 ==> w.springs[k] == RestSpring(k, w.stepSize))
  }

  /** `new PhysicsWorld(length, count)`. The export array starts zeroed. */
  function NewWorld(length: real, count: nat): (w: World)
    requires count >= 2
    ensures Valid(w)
    ensures w.length == length && w.count == count && |w.bodies| == count
    ensures w.bodies[0].position == Vec3(-length / 2.0, 0.0, 0.0)
    ensures w.bodies[count - 1].position == Vec3(length / 2.0, 0.0, 0.0)
    ensures forall i :: 0 <= i < count - 1 ==>
      w.bodies[i + 1].position.x - w.bodies[i].position.x == w.stepSize
    ensures forall i :: 0 <= i < count ==> w.bodies[i].position.y == 0.0 == w.bodies[i].position.z
    ensures w.bodies[0].mass == 0.0 && w.bodies[count - 1].mass == 0.0
    ensures forall i :: 0 < i < count - 1 ==> w.bodies[i].mass == 1.0
  {
    var c := InitSpine(length, count, count);
    var s := StepSize(length, count);
    assert (count - 1) as real * s == length;
    World(length, count, s, c.bodies, c.springs, seq(3 * count, _ => 0.0))
  }

  /** Index of the body the audio force aims at: Math.floor of the axial
      position divided by the step, clamped into the chain. `None` is the
      JavaScript NaN index (zero-length chain, play position at its centre),
      for which the source finds no body and returns. */
  function TargetIndex(w: World, playX: real): (r: Option<nat>)
    requires Valid(w)
    ensures r.Some? ==> r.value < w.count
    ensures w.stepSize != 0.0 ==> r.Some?
  {
    var normalized := playX + w.length / 2.0;
    if w.stepSize == 0.0 then
      // normalized / 0 is NaN, +Infinity or -Infinity in JavaScript
      if normalized == 0.0 then None
      else if normalized > 0.0 then Some(w.count - 1)
      else Some(0)
    else
      Some(ClampInt(Floor(normalized / w.stepSize), 0, w.count - 1))
  }

  function Dist(i: int, j: int): nat {
    if i >= j then i - j else j - i
  }

  /** Fraction of the kick received by a body at distance `dist` from the target. */
  function Share(dist: nat): real {
    if dist == 0 then 1.0
    else if dist == 1 then 0.5
    else if dist == 2 then 1.0 / 3.0
    else 0.0
  }

  /** Share of the neighbour pass that starts at distance d (d = 1 is the whole pass). */
  function ShareFrom(d: nat, dist: nat): real {
    if d <= dist <= 2 then Share(dist) else 0.0
  }

  function Push(bs: seq<Body>, i: nat, f: Vec3): (r: seq<Body>)
    requires i < |bs|
  {
    bs[i := bs[i].(force := Add(bs[i].force, f))]
  }

  /** The `for (d = 1; d <= 2; d++)` neighbour loop, from distance d on. */
  function Spread(bs: seq<Body>, idx: nat, f: Vec3, d: nat): (r: seq<Body>)
    requires idx < |bs| && 1 <= d <= 3
    decreases 3 - d
    ensures |r| == |bs|
    ensures forall i :: 0 <= i < |bs| ==>
      r[i] == bs[i].(force := Add(bs[i].force, Scale(f, ShareFrom(d, Dist(i, idx)))))
  {
    if d > 2 then
      bs
    else
      // the source's factor 1 / (d + 1), which is Share(d) for d = 1, 2
      var g := Scale(f, Share(d));
      var left := if idx - d >= 0 then Push(bs, idx - d, g) else bs;
      var both := if idx + d < |bs| then Push(left, idx + d, g) else left;
      Spread(both, idx, f, d + 1)
  }

  /** The force a body receives from one `applyAudioForce` call: nothing when
      the target is missing or pinned, otherwise `dir * (level * 500)` scaled
      by 1, 1/2 or 1/3 with the distance to the target, nothing beyond. */
  function Received(w: World, level: real, playX: real, dir: Vec3, i: nat): Vec3
    requires Valid(w)
  {
    match TargetIndex(w, playX)
    case None => Zero
    case Some(idx) =>
      if w.bodies[idx].mass == 0.0 then Zero
      else Scale(Scale(dir, level * ForceScale), Share(Dist(i, idx)))
  }

  /** `applyAudioForce(audioLevel, playX)`; `dir` is the normalised random
      direction the source draws. */
  function ApplyAudioForce(w: World, level: real, playX: real, dir: Vec3): (r: World)
    requires Valid(w)
    ensures Valid(r)
    ensures r.length == w.length && r.count == w.count && r.stepSize == w.stepSize
    ensures r.springs == w.springs && r.spinePositions == w.spinePositions
    ensures forall i :: 0 <= i < w.count ==>
      r.bodies[i] == w.bodies[i].(force := Add(w.bodies[i].force, Received(w, level, playX, dir, i)))
  {
    match TargetIndex(w, playX)
    case None => w
    case Some(idx) =>
      if w.bodies[idx].mass == 0.0 then w
      else
        var f := Scale(dir, level * ForceScale);
        var bs := Spread(Push(w.bodies, idx, f), idx, f, 1);
        KickReceived(w, level, playX, dir, idx, f, bs);
        w.(bodies := bs)
  }

  /** The kick at the target plus the neighbour pass is what `Received` says. */
  lemma KickReceived(w: World, level: real, playX: real, dir: Vec3, idx: nat, f: Vec3, bs: seq<Body>)
    requires Valid(w) && TargetIndex(w, playX) == Some(idx) && w.bodies[idx].mass != 0.0
    requires f == Scale(dir, level * ForceScale)
    requires bs == Spread(Push(w.bodies, idx, f), idx, f, 1)
    ensures |bs| == w.count
    ensures forall i :: 0 <= i < w.count ==>
      bs[i] == w.bodies[i].(force := Add(w.bodies[i].force, Received(w, level, playX, dir, i)))
  {
    var p := Push(w.bodies, idx, f);
    forall i | 0 <= i < w.count
      ensures bs[i] == w.bodies[i].(force := Add(w.bodies[i].force, Received(w, level, playX, dir, i)))
    {
      var b := w.bodies[i];
      assert bs[i] == p[i].(force := Add(p[i].force, Scale(f, ShareFrom(1, Dist(i, idx)))));
      assert Received(w, level, playX, dir, i) == Scale(f, Share(Dist(i, idx)));
      if i == idx {
        assert p[i] == b.(force := Add(b.force, f));
        assert ShareFrom(1, Dist(i, idx)) == 0.0;
      } else {
        assert p[i] == b;
      }
    }
  }

  function Positions(bs: seq<Body>): (ps: seq<Vec3>)
    ensures |ps| == |bs|
    ensures forall i :: 0 <= i < |bs| ==> ps[i] == bs[i].position
  {
    seq(|bs|, i requires 0 <= i < |bs| => bs[i].position)
  }

  /** The export loop of `update`: three consecutive slots per body. */
  function Flatten(ps: seq<Vec3>): (a: seq<real>)
    ensures |a| == 3 * |ps|
    ensures forall i :: 0 <= i < |ps| ==>
      a[3 * i] == ps[i].x && a[3 * i + 1] == ps[i].y && a[3 * i + 2] == ps[i].z
  {
    if |ps| == 0 then []
    else
      var last := ps[|ps| - 1];
      Flatten(ps[..|ps| - 1]) + [last.x, last.y, last.z]
  }

  /** How a shader reads the flat array back as `vec3` entries. */
  function Unflatten(a: seq<real>): (ps: seq<Vec3>)
    requires |a| % 3 == 0
    ensures |ps| == |a| / 3
  {
    seq(|a| / 3, i requires 0 <= i < |a| / 3 => Vec3(a[3 * i], a[3 * i + 1], a[3 * i + 2]))
  }

  /** `update(dt)`: the library step leaves the bodies at `stepped`; the sync
      loop then copies them into `spinePositions`. */
  function Update(w: World, stepped: seq<Vec3>): (r: World)
    requires Valid(w) && |stepped| == w.count
    ensures Valid(r)
    ensures Unflatten(r.spinePositions) == stepped
    ensures forall i :: 0 <= i < w.count ==> r.bodies[i].position == stepped[i]
  {
    var bs := seq(w.count, i requires 0 <= i < w.count => w.bodies[i].(position := stepped[i]));
    assert Positions(bs) == stepped;
    UnflattenFlatten(stepped);
    w.(bodies := bs, spinePositions := Flatten(Positions(bs)))
  }

  // ---------------------------------------------------------------- lemmas

  lemma UnflattenFlatten(ps: seq<Vec3>)
    ensures Unflatten(Flatten(ps)) == ps
  {
  }

  lemma FlattenUnflatten(a: seq<real>)
    requires |a| % 3 == 0
    ensures Flatten(Unflatten(a)) == a
  {
    var b := Flatten(Unflatten(a));
    var ps := Unflatten(a);
    forall j | 0 <= j < |a|
      ensures b[j] == a[j]
    {
      var i := j / 3;
      assert j == 3 * i || j == 3 * i + 1 || j == 3 * i + 2;
      assert ps[i] == Vec3(a[3 * i], a[3 * i + 1], a[3 * i + 2]);
    }
  }

  /** With the viewer's arguments the step is 50/19 and the half length 25,
      the constants the shaders hard-code, and body k rests at -25 + k*50/19. */
  lemma DefaultChain()
    ensures StepSize(DefaultLength, DefaultCount) == 50.0 / 19.0
    ensures DefaultLength / 2.0 == 25.0
    ensures forall k :: 0 <= k < DefaultCount ==>
      NewWorld(DefaultLength, DefaultCount).bodies[k].position
        == Vec3(-25.0 + k as real * (50.0 / 19.0), 0.0, 0.0)
  {
  }

  lemma DivMonotone(a: real, b: real, s: real)
    requires s > 0.0 && a <= b
    ensures a / s <= b / s
  {
  }

  lemma DivBelowOne(a: real, s: real)
    requires s > 0.0 && a < s
    ensures a / s < 1.0
  {
  }

  /** Floor, not rounding: for a positive step, body i is the one at or
      just before playX, so the chosen body never lies to its right. */
  lemma TargetBrackets(w: World, playX: real)
    requires Valid(w) && w.length > 0.0
    requires -w.length / 2.0 <= playX < w.length / 2.0
    ensures TargetIndex(w, playX).Some?
    ensures var i := TargetIndex(w, playX).value;
      RestX(w.length, w.count, i) <= playX < RestX(w.length, w.count, i + 1)
  {
    var s := w.stepSize;
    var n := playX + w.length / 2.0;
    assert s > 0.0;
    var q := n / s;
    assert q * s == n;
    var fl := Floor(q);
    assert 0 <= fl;
    assert (w.count - 1) as real * s == w.length;
    DivBelowOne(n, w.length);
    assert q < (w.count - 1) as real by {
      assert n < w.length;
      assert q * s < (w.count - 1) as real * s;
    }
    assert fl < w.count - 1;
    assert TargetIndex(w, playX).value == fl;
    assert fl as real * s <= q * s;
    assert q * s < (fl + 1) as real * s;
  }

  /** No force at all when the target is pinned: left of body 1 or at or past
      the right end. The "not playing" sentinel -9999 is such a position for
      any chain shorter than 19998. */
  lemma NoKickOutsideInterior(w: World, level: real, playX: real, dir: Vec3)
    requires Valid(w) && w.length > 0.0
    requires playX < RestX(w.length, w.count, 1) || playX >= w.length / 2.0
    ensures ApplyAudioForce(w, level, playX, dir) == w
  {
    var s := w.stepSize;
    var n := playX + w.length / 2.0;
    var m := (w.count - 1) as real;
    assert s > 0.0;
    assert m * s == w.length;
    if n < s {
      DivBelowOne(n, s);
      assert TargetIndex(w, playX) == Some(0);
    } else {
      DivAtLeast(n, s, m);
      assert TargetIndex(w, playX) == Some(w.count - 1);
    }
  }

  lemma DivAtLeast(n: real, s: real, m: real)
    requires s > 0.0 && n >= m * s
    ensures n / s >= m
  {
    var q := n / s;
    assert q * s == n;
    if q < m { MulPositive(m - q, s); }
  }

  lemma SentinelIsNoKick(w: World, level: real, dir: Vec3)
    requires Valid(w) && 0.0 < w.length < 19998.0
    ensures ApplyAudioForce(w, level, -9999.0, dir) == w
  {
    assert -9999.0 < RestX(w.length, w.count, 1);
    NoKickOutsideInterior(w, level, -9999.0, dir);
  }

  /** Conversely, inside [body 1, right end) the target is an interior body
      and it receives exactly `dir * (level * 500)`. */
  lemma KickInsideInterior(w: World, level: real, playX: real, dir: Vec3)
    requires Valid(w) && w.length > 0.0
    requires RestX(w.length, w.count, 1) <= playX < w.length / 2.0
    ensures var i := TargetIndex(w, playX).value;
      0 < i < w.count - 1
      && ApplyAudioForce(w, level, playX, dir).bodies[i].force
         == Add(w.bodies[i].force, Scale(dir, level * ForceScale))
  {
    TargetBrackets(w, playX);
    var i := TargetIndex(w, playX).value;
    var s := w.stepSize;
    assert s > 0.0;
    assert RestX(w.length, w.count, 1) <= playX < RestX(w.length, w.count, i + 1);
    assert 1.0 * s < (i + 1) as real * s;
    assert 0 < i;
    assert w.bodies[i].mass == 1.0;
  }
}

=== FILE: ply.dfy ===
/** The ASCII PLY reader `parsePLY`: the header ends at the first
    `end_header\n` inside the first 2048 characters, the vertex and edge
    counts come from the first `element vertex <digits>` and
    `element edge <digits>` declarations of that header, the body is cut into
    whitespace-separated tokens, and a running index reads six tokens per
    vertex (x y z r g b) and then two per edge. The file is taken to be
    ASCII, so a decoded character is one byte. `parseFloat`, the colour
    conversion `parseInt(t) / 255` and `parseInt` are parameters; `None`
    stands for a token read past the end of the array (`undefined`). */
module Ply {
  import opened Wrappers

  /** How much of the file is searched for the end of the header. */
  const HeaderWindow: nat := 2048
  const EndHeader: string := "end_header\n"
  const VertexKey: string := "element vertex "
  const EdgeKey: string := "element edge "
  /** Tokens read per vertex and per edge. */
  const VertexTokens: nat := 6
  const EdgeTokens: nat := 2
  /** The `layers` figure a loaded PLY file reports. */
  const PlyLayers: nat := 10

  // ------------------------------------------------------------- searching

  /** `pat` occurs in `s` at position i. */
  predicate At(s: string, pat: string, i: nat) {
    i + |pat| <= |s| && s[i..i + |pat|] == pat
  }

  /** `s.indexOf(pat, from)`, with `None` for -1. */
  function IndexFrom(s: string, pat: string, from: nat): (r: Option<nat>)
    decreases |s| - from
    ensures r.Some? ==> from <= r.value && At(s, pat, r.value)
    ensures r.Some? ==> forall j :: from <= j < r.value ==> !At(s, pat, j)
    ensures r.None? ==> forall j :: from <= j ==> !At(s, pat, j)
  {
    if from + |pat| > |s| then None
    else if s[from..from + |pat|] == pat then Some(from)
    else IndexFrom(s, pat, from + 1)
  }

  function Min(a: nat, b: nat): nat {
    if a <= b then a else b
  }

  /** Where the body starts: just after the first `end_header\n` that lies
      wholly within the first 2048 characters, or 0 when there is none. */
  function HeaderEnd(text: string): (e: nat)
    ensures e <= |text|
    ensures e > 0 ==> e <= HeaderWindow && e >= |EndHeader| && At(text, EndHeader, e - |EndHeader|)
    ensures e > 0 ==> forall j: nat :: j < e - |EndHeader| ==> !At(text, EndHeader, j)
    ensures e == 0 ==> forall j: nat :: j + |EndHeader| <= Min(HeaderWindow, |text|) ==> !At(text, EndHeader, j)
  {
    var chunk := text[..Min(HeaderWindow, |text|)];
    match IndexFrom(chunk, EndHeader, 0)
    case None =>
      assert forall j: nat :: j + |EndHeader| <= |chunk| ==> (At(text, EndHeader, j) <==> At(chunk, EndHeader, j)) by {
        forall j: nat | j + |EndHeader| <= |chunk|
          ensures At(text, EndHeader, j) <==> At(chunk, EndHeader, j)
        {
          assert chunk[j..j + |EndHeader|] == text[j..j + |EndHeader|];
        }
      }
      0
    case Some(i) =>
      assert chunk[i..i + |EndHeader|] == text[i..i + |EndHeader|];
      assert forall j: nat :: j < i ==> !At(text, EndHeader, j) by {
        forall j: nat | j < i
          ensures !At(text, EndHeader, j)
        {
          assert !At(chunk, EndHeader, j);
          assert j + |EndHeader| <= |chunk|;
          assert chunk[j..j + |EndHeader|] == text[j..j + |EndHeader|];
        }
      }
      i + |EndHeader|
  }

  // ---------------------------------------------------------------- counts

  predicate IsDigit(c: char) {
    '0' <= c <= '9'
  }

  predicate AllDigits(s: string) {
    forall k :: 0 <= k < |s| ==> IsDigit(s[k])
  }

  /** End of the run of digits starting at i. */
  function DigitsEnd(s: string, i: nat): (e: nat)
    requires i <= |s|
    decreases |s| - i
    ensures i <= e <= |s|
    ensures forall k :: i <= k < e ==> IsDigit(s[k])
    ensures e < |s| ==> !IsDigit(s[e])
  {
    if i < |s| && IsDigit(s[i]) then DigitsEnd(s, i + 1) else i
  }

  /** The decimal value of a digit string (`parseInt` of it). */
  function Value(ds: string): nat
    requires AllDigits(ds)
  {
    if |ds| == 0 then 0
    else Value(ds[..|ds| - 1]) * 10 + (ds[|ds| - 1] as int - '0' as int)
  }

  /** The decimal numeral of n. */
  function Show(n: nat): (ds: string)
    ensures |ds| > 0 && AllDigits(ds)
  {
    var last := ['0' + (n % 10) as char];
    if n < 10 then last else Show(n / 10) + last
  }

  /** `key` followed by at least one digit starts at position p of h: a
      match of the regular expression `key(\d+)`. */
  predicate Declares(h: string, key: string, p: nat) {
    At(h, key, p) && p + |key| < |h| && IsDigit(h[p + |key|])
  }

  /** The leftmost match at or after `from`. */
  function FirstDeclaration(h: string, key: string, from: nat): (r: Option<nat>)
    requires |key| > 0
    decreases |h| - from
    ensures r.Some? ==> from <= r.value && Declares(h, key, r.value)
    ensures r.Some? ==> forall p :: from <= p < r.value ==> !Declares(h, key, p)
    ensures r.None? ==> forall p :: from <= p ==> !Declares(h, key, p)
  {
    match IndexFrom(h, key, from)
    case None => None
    case Some(p) =>
      if p + |key| < |h| && IsDigit(h[p + |key|]) then Some(p)
      else FirstDeclaration(h, key, p + 1)
  }

  /** `parseInt(header.match(/key(\d+)/)?.[1] || 0)`: the number the first
      declaration carries, with its digits taken greedily; 0 without one. */
  function Count(h: string, key: string): nat
    requires |key| > 0
  {
    match FirstDeclaration(h, key, 0)
    case None => 0
    case Some(p) =>
      var d := p + |key|;
      Value(h[d..DigitsEnd(h, d)])
  }

  // ----------------------------------------------------------- tokenising

  /** The characters JavaScript's `trim` and the class `\s` treat as white
      space: the WhiteSpace and LineTerminator code points of ECMAScript. */
  predicate IsSpace(c: char) {
    || c == '\t' || c == '\n' || c == '\U{000B}' || c == '\U{000C}' || c == '\r' || c == ' '
    || c == '\U{00A0}' || c == '\U{1680}' || ('\U{2000}' <= c <= '\U{200A}')
    || c == '\U{2028}' || c == '\U{2029}' || c == '\U{202F}' || c == '\U{205F}'
    || c == '\U{3000}' || c == '\U{FEFF}'
  }

  predicate SpaceFree(s: string) {
    forall k :: 0 <= k < |s| ==> !IsSpace(s[k])
  }

  /** First position at or after `from` whose character is not of the kind
      `space` asks for (white space or not), or |s|. */
  function Span(s: string, from: nat, space: bool): (e: nat)
    requires from <= |s|
    decreases |s| - from
    ensures from <= e <= |s|
    ensures forall k :: from <= k < e ==> IsSpace(s[k]) == space
    ensures e < |s| ==> IsSpace(s[e]) != space
  {
    if from < |s| && IsSpace(s[from]) == space then Span(s, from + 1, space) else from
  }

  /** `s.split(/\s+/)`: the pieces between maximal runs of white space
      (a leading or trailing run gives an empty piece, "" gives [""]). */
  function Split(s: string): (ts: seq<string>)
    decreases |s|
    ensures |ts| > 0
    ensures forall k :: 0 <= k < |ts| ==> SpaceFree(ts[k])
  {
    var i := Span(s, 0, false);
    if i == |s| then [s]
    else
      var j := Span(s, i, true);
      [s[..i]] + Split(s[j..])
  }

  function TrimEnd(s: string): (r: string)
    ensures |r| <= |s| && r == s[..|r|]
    ensures |r| > 0 ==> !IsSpace(r[|r| - 1])
    ensures forall k :: |r| <= k < |s| ==> IsSpace(s[k])
  {
    if |s| > 0 && IsSpace(s[|s| - 1]) then TrimEnd(s[..|s| - 1]) else s
  }

  /** `s.trim()`. */
  function Trim(s: string): (r: string)
    ensures |r| > 0 ==> !IsSpace(r[0]) && !IsSpace(r[|r| - 1])
  {
    TrimEnd(s[Span(s, 0, true)..])
  }

  /** The tokens of a PLY body: `text.trim().split(/\s+/)`. */
  function Tokenize(text: string): seq<string> {
    Split(Trim(text))
  }

  /** s with every white-space character removed. */
  function Strip(s: string): string {
    if |s| == 0 then ""
    else (if IsSpace(s[0]) then "" else [s[0]]) + Strip(s[1..])
  }

  /** The tokens laid end to end. */
  function Concat(ts: seq<string>): string {
    if |ts| == 0 then "" else ts[0] + Concat(ts[1..])
  }

  /** Words separated by single spaces, as a writer lays out a PLY line. */
  function Join(ws: seq<string>): string
    requires |ws| > 0
  {
    if |ws| == 1 then ws[0] else ws[0] + " " + Join(ws[1..])
  }

  // ------------------------------------------------------- reading values

  /** `textData[k]`; reading past the end gives `undefined`, here `None`. */
  function Token(tokens: seq<string>, k: nat): Option<string> {
    if k < |tokens| then Some(tokens[k]) else None
  }

  /** The token read for entry j of the position array: x, y, z of vertex
      j / 3 are its tokens 0, 1, 2. */
  function PositionSlot(j: nat): nat {
    VertexTokens * (j / 3) + j % 3
  }

  /** The token read for entry j of the colour array: r, g, b of vertex
      j / 3 are its tokens 3, 4, 5. */
  function ColorSlot(j: nat): nat {
    VertexTokens * (j / 3) + 3 + j % 3
  }

  /** The two index loops of `parsePLY`. `number` is `parseFloat`,
      `channel` is `parseInt(t) / 255` and `index` is `parseInt`; their
      result type is left open so that it can hold NaN. */
  method ReadBody<F>(tokens: seq<string>, vertexCount: nat, edgeCount: nat,
                     number: Option<string> -> F, channel: Option<string> -> F,
                     index: Option<string> -> F)
    returns (positions: seq<F>, colors: seq<F>, indices: seq<F>)
    ensures |positions| == 3 * vertexCount && |colors| == 3 * vertexCount
    ensures |indices| == 2 * edgeCount
    ensures forall j :: 0 <= j < |positions| ==>
      positions[j] == number(Token(tokens, PositionSlot(j)))
    ensures forall j :: 0 <= j < |colors| ==>
      colors[j] == channel(Token(tokens, ColorSlot(j)))
    ensures forall j :: 0 <= j < |indices| ==>
      indices[j] == index(Token(tokens, VertexTokens * vertexCount + j))
  {
    var ptr := 0;
    positions, colors := [], [];
    var i := 0;
    while i < vertexCount
      invariant 0 <= i <= vertexCount
      invariant ptr == VertexTokens * i
      invariant |positions| == 3 * i && |colors| == 3 * i
      invariant forall j :: 0 <= j < |positions| ==>
        positions[j] == number(Token(tokens, PositionSlot(j)))
      invariant forall j :: 0 <= j < |colors| ==>
        colors[j] == channel(Token(tokens, ColorSlot(j)))
    {
      var x := number(Token(tokens, ptr));
      var y := number(Token(tokens, ptr + 1));
      var z := number(Token(tokens, ptr + 2));
      var r := channel(Token(tokens, ptr + 3));
      var g := channel(Token(tokens, ptr + 4));
      var b := channel(Token(tokens, ptr + 5));
      ptr := ptr + 6;
      ghost var before := |positions|;
      positions := positions + [x, y, z];
      colors := colors + [r, g, b];
      assert forall j :: before <= j < |positions| ==> j / 3 == i && j % 3 == j - before;
      i := i + 1;
    }
    indices := [];
    var e := 0;
    while e < edgeCount
      invariant 0 <= e <= edgeCount
      invariant ptr == VertexTokens * vertexCount + EdgeTokens * e
      invariant |indices| == 2 * e
      invariant forall j :: 0 <= j < |indices| ==>
        indices[j] == index(Token(tokens, VertexTokens * vertexCount + j))
    {
      var v1 := index(Token(tokens, ptr));
      var v2 := index(Token(tokens, ptr + 1));
      ptr := ptr + 2;
      indices := indices + [v1, v2];
      e := e + 1;
    }
  }

  /** The counts `parsePLY` reads from a file's header. */
  function Counts(text: string): (nat, nat) {
    var header := text[..HeaderEnd(text)];
    (Count(header, VertexKey), Count(header, EdgeKey))
  }

  /** The tokens of everything after the header. */
  function Body(text: string): seq<string> {
    Tokenize(text[HeaderEnd(text)..])
  }

  /** `parsePLY` on the decoded file: the geometry arrays and the `nodes`
      and `links` figures of its stats (whose `layers` is `PlyLayers`). */
  method Parse<F>(text: string, number: Option<string> -> F, channel: Option<string> -> F,
                  index: Option<string> -> F)
    returns (positions: seq<F>, colors: seq<F>, indices: seq<F>, nodes: nat, links: nat)
    ensures (nodes, links) == Counts(text)
    ensures |positions| == 3 * nodes && |colors| == 3 * nodes && |indices| == 2 * links
    ensures forall j :: 0 <= j < |positions| ==>
      positions[j] == number(Token(Body(text), PositionSlot(j)))
    ensures forall j :: 0 <= j < |colors| ==>
      colors[j] == channel(Token(Body(text), ColorSlot(j)))
    ensures forall j :: 0 <= j < |indices| ==>
      indices[j] == index(Token(Body(text), VertexTokens * nodes + j))
  {
    nodes := Counts(text).0;
    links := Counts(text).1;
    positions, colors, indices := ReadBody(Body(text), nodes, links, number, channel, index);
  }

  // ---------------------------------------------------------------- lemmas

  /** Vertex i is read from tokens 6i .. 6i+5 in the order x y z r g b. */
  lemma VertexLayout<F>(positions: seq<F>, colors: seq<F>, tokens: seq<string>,
                        number: Option<string> -> F, channel: Option<string> -> F, i: nat, k: nat)
    requires forall j :: 0 <= j < |positions| ==>
      positions[j] == number(Token(tokens, PositionSlot(j)))
    requires forall j :: 0 <= j < |colors| ==>
      colors[j] == channel(Token(tokens, ColorSlot(j)))
    requires 3 * i + k < |positions| && 3 * i + k < |colors| && k < 3
    ensures positions[3 * i + k] == number(Token(tokens, 6 * i + k))
    ensures colors[3 * i + k] == channel(Token(tokens, 6 * i + 3 + k))
  {
    var j := 3 * i + k;
    assert j / 3 == i && j % 3 == k;
  }

  lemma {:induction false} ValueShow(n: nat)
    ensures Value(Show(n)) == n
    decreases n
  {
    var ds := Show(n);
    if n >= 10 {
      ValueShow(n / 10);
      assert ds[..|ds| - 1] == Show(n / 10);
    }
  }

  /** The digit run of a numeral followed by a non-digit is the numeral. */
  lemma DigitsOfShow(pre: string, n: nat, tail: string)
    requires |tail| == 0 || !IsDigit(tail[0])
    ensures var s := pre + Show(n) + tail;
      DigitsEnd(s, |pre|) == |pre| + |Show(n)| && s[|pre|..|pre| + |Show(n)|] == Show(n)
  {
    var ds := Show(n);
    var s := pre + ds + tail;
    var m := |pre| + |ds|;
    assert s[|pre|..m] == ds;
    forall k | |pre| <= k < m
      ensures IsDigit(s[k])
    {
      assert s[k] == ds[k - |pre|];
    }
    if m < |s| {
      assert s[m] == tail[0];
    }
    DigitsEndAt(s, |pre|, m);
  }

  /** A digit run that stops at m ends at m. */
  lemma {:induction false} DigitsEndAt(s: string, i: nat, m: nat)
    requires i <= m <= |s|
    requires forall k :: i <= k < m ==> IsDigit(s[k])
    requires m < |s| ==> !IsDigit(s[m])
    ensures DigitsEnd(s, i) == m
    decreases m - i
  {
    if i < m {
      DigitsEndAt(s, i + 1, m);
    }
  }

  /** A count round-trips through its header line: when the first
      declaration of `key` is the one written for n, the reader finds n. */
  lemma CountReadsDeclaration(pre: string, key: string, n: nat, tail: string)
    requires |key| > 0
    requires |tail| == 0 || !IsDigit(tail[0])
    requires forall p :: 0 <= p < |pre| ==> !Declares(pre + key + Show(n) + tail, key, p)
    ensures Count(pre + key + Show(n) + tail, key) == n
  {
    var h := pre + key + Show(n) + tail;
    assert h == (pre + key) + Show(n) + tail;
    assert h[|pre|..|pre| + |key|] == key;
    assert h[|pre| + |key|] == Show(n)[0];
    assert Declares(h, key, |pre|);
    DigitsOfShow(pre + key, n, tail);
    ValueShow(n);
  }

  /** A file without `end_header\n` in its first 2048 characters has an
      empty header, so both counts are 0 and nothing is read. */
  lemma NoHeaderNoGeometry(text: string)
    requires forall j: nat :: j + |EndHeader| <= Min(HeaderWindow, |text|) ==> !At(text, EndHeader, j)
    ensures Counts(text) == (0, 0)
  {
    var e := HeaderEnd(text);
    if e > 0 {
      assert false;
    }
  }

  lemma {:induction false} StripAppend(a: string, b: string)
    ensures Strip(a + b) == Strip(a) + Strip(b)
    decreases |a|
  {
    if |a| > 0 {
      assert (a + b)[1..] == a[1..] + b;
      StripAppend(a[1..], b);
    } else {
      assert a + b == b;
    }
  }

  lemma {:induction false} StripSpaceFree(s: string)
    requires SpaceFree(s)
    ensures Strip(s) == s
    decreases |s|
  {
    if |s| > 0 {
      StripSpaceFree(s[1..]);
      assert s == [s[0]] + s[1..];
    }
  }

  lemma {:induction false} StripAllSpace(s: string)
    requires forall k :: 0 <= k < |s| ==> IsSpace(s[k])
    ensures Strip(s) == ""
    decreases |s|
  {
    if |s| > 0 {
      StripAllSpace(s[1..]);
    }
  }

  /** Splitting loses exactly the white space. */
  lemma {:induction false} SplitKeepsText(s: string)
    ensures Concat(Split(s)) == Strip(s)
    decreases |s|
  {
    var i := Span(s, 0, false);
    if i == |s| {
      StripSpaceFree(s);
      assert s[..i] == s;
      assert Concat([s]) == s + Concat([]);
    } else {
      var j := Span(s, i, true);
      var rest := Split(s[j..]);
      assert Split(s) == [s[..i]] + rest;
      SplitKeepsText(s[j..]);
      StripPieces(s, i, j);
      assert ([s[..i]] + rest)[1..] == rest;
    }
  }

  /** A space-free prefix, a run of white space, then the rest. */
  lemma {:induction false} StripPieces(s: string, i: nat, j: nat)
    requires i <= j <= |s|
    requires forall k :: 0 <= k < i ==> !IsSpace(s[k])
    requires forall k :: i <= k < j ==> IsSpace(s[k])
    ensures Strip(s) == s[..i] + Strip(s[j..])
    decreases j
  {
    if j > 0 {
      var t := s[1..];
      StripPieces(t, if i > 0 then i - 1 else 0, j - 1);
      assert t[j - 1..] == s[j..];
      if i > 0 {
        assert s[..i] == [s[0]] + t[..i - 1];
      }
    } else {
      assert s[j..] == s;
    }
  }

  /** A string with no white space at either end splits into non-empty
      pieces. */
  lemma {:induction false} SplitTrimmedNonEmpty(s: string)
    requires |s| > 0 && !IsSpace(s[0]) && !IsSpace(s[|s| - 1])
    ensures forall k :: 0 <= k < |Split(s)| ==> |Split(s)[k]| > 0
    decreases |s|
  {
    var i := Span(s, 0, false);
    if i < |s| {
      var j := Span(s, i, true);
      assert j < |s|;
      var rest := s[j..];
      assert rest[0] == s[j] && rest[|rest| - 1] == s[|s| - 1];
      SplitTrimmedNonEmpty(rest);
      assert Split(s) == [s[..i]] + Split(rest);
    }
  }

  lemma StripTrimEnd(t: string)
    ensures Strip(TrimEnd(t)) == Strip(t)
  {
    var r := TrimEnd(t);
    var rest := t[|r|..];
    assert t == r + rest;
    StripAppend(r, rest);
    StripAllSpace(rest);
  }

  lemma TrimKeepsText(s: string)
    ensures Strip(Trim(s)) == Strip(s)
  {
    var a := Span(s, 0, true);
    var t := s[a..];
    assert s == s[..a] + t;
    StripAppend(s[..a], t);
    StripAllSpace(s[..a]);
    StripTrimEnd(t);
  }

  /** A body of white space only gives the single empty token. */
  lemma TokenizeBlank(text: string)
    requires Strip(text) == ""
    ensures Tokenize(text) == [""]
  {
    TrimKeepsText(text);
    var r := Trim(text);
    if |r| > 0 {
      assert false;
    }
  }

  /** Otherwise every token is a non-empty run of non-space characters, and
      together they are the body with its white space removed. */
  lemma TokenizeWords(text: string)
    requires Strip(text) != ""
    ensures forall k :: 0 <= k < |Tokenize(text)| ==>
      |Tokenize(text)[k]| > 0 && SpaceFree(Tokenize(text)[k])
    ensures Concat(Tokenize(text)) == Strip(text)
  {
    TrimKeepsText(text);
    SplitKeepsText(Trim(text));
    if |Trim(text)| > 0 {
      SplitTrimmedNonEmpty(Trim(text));
    }
  }

  lemma JoinEnds(ws: seq<string>)
    requires |ws| > 0 && forall k :: 0 <= k < |ws| ==> |ws[k]| > 0
    ensures |Join(ws)| > 0
    ensures Join(ws)[0] == ws[0][0]
    ensures Join(ws)[|Join(ws)| - 1] == ws[|ws| - 1][|ws[|ws| - 1]| - 1]
  {
    if |ws| > 1 {
      JoinEnds(ws[1..]);
    }
  }

  /** Splitting undoes joining with single spaces. */
  lemma {:induction false} SplitJoin(ws: seq<string>)
    requires |ws| > 0 && forall k :: 0 <= k < |ws| ==> |ws[k]| > 0 && SpaceFree(ws[k])
    ensures Split(Join(ws)) == ws
    decreases |ws|
  {
    var s := Join(ws);
    var w := ws[0];
    if |ws| == 1 {
      assert Span(s, 0, false) == |s|;
    } else {
      var rest := Join(ws[1..]);
      JoinEnds(ws[1..]);
      assert s == w + " " + rest;
      assert s[|w|] == ' ';
      assert forall k :: 0 <= k < |w| ==> s[k] == w[k];
      assert Span(s, 0, false) == |w|;
      assert s[|w| + 1] == rest[0];
      assert Span(s, |w|, true) == |w| + 1;
      assert s[..|w|] == w && s[|w| + 1..] == rest;
      SplitJoin(ws[1..]);
    }
  }

  /** The tokens of a body written as words separated by single spaces are
      those words. */
  lemma TokenizeJoin(ws: seq<string>)
    requires |ws| > 0 && forall k :: 0 <= k < |ws| ==> |ws[k]| > 0 && SpaceFree(ws[k])
    ensures Tokenize(Join(ws)) == ws
  {
    var s := Join(ws);
    JoinEnds(ws);
    assert Span(s, 0, true) == 0;
    assert s[0..] == s;
    assert TrimEnd(s) == s;
    SplitJoin(ws);
  }
}

=== FILE: rings.dfy ===
/** The mesh topology `parseAudio` builds from a decoded track. The samples
    are visited with a stride of 10; a ring of 8 vertices is emitted at the
    first visited sample at or past each multiple of `step`, where `step` is
    the sample count divided by 2000, rounded down. Each ring after the
    first is tied to the ring before it: for every segment a rung to the
    previous ring, an edge around the ring, and two diagonals that each
    appear on a coin toss (`Math.random() > 0.4`), here the parameter `coin`.
    Vertex coordinates, colours and the low-pass filter do not enter the
    topology and are not modelled. */
module Rings {

  const TargetSteps: nat := 2000
  const FilterStride: nat := 10
  const Segments: nat := 8
  // The arithmetic below writes these three as the literals 2000, 10 and 8,
  // which keeps products and remainders linear for the solver.
  /** The `layers` figure a loaded track reports. */
  const AudioLayers: nat := 2

  // -------------------------------------------------------- ring schedule

  function Max(a: int, b: int): int {
    if a >= b then a else b
  }

  /** a / d rounded up. */
  function CeilDiv(a: nat, d: nat): (c: nat)
    requires d > 0
    ensures c * d >= a && (c == 0 || (c - 1) * d < a)
  {
    (a + d - 1) / d
  }

  /** The sample at which ring k is emitted: the first multiple of the
      stride (10) that is at or past k * step and comes after ring k - 1. */
  function RingAt(k: nat, step: nat): nat {
    10 * Max(k, CeilDiv(k * step, 10))
  }

  lemma RingAtReached(n: nat, step: nat, i: nat)
    requires i % 10 == 0 && i >= 10 * n && i >= n * step
    ensures i >= RingAt(n, step)
  {
    var q := i / 10;
    assert q * 10 == i;
  }

  lemma RingAtAdvances(n: nat, step: nat)
    ensures RingAt(n + 1, step) >= RingAt(n, step) + FilterStride
  {
    var c := CeilDiv(n * step, 10);
    var c' := CeilDiv((n + 1) * step, 10);
    assert (n + 1) * step == n * step + step;
    if c > n {
      assert (c - 1) * 10 < n * step;
      assert n * 10 < n * step;
      assert step > FilterStride;
      assert c' * 10 >= n * step + FilterStride;
      assert c' > c;
    }
  }

  lemma BeforeRing(n: nat, step: nat, i: nat)
    requires i % 10 == 0 && i < n * step
    ensures i + FilterStride <= RingAt(n, step)
  {
    var r := RingAt(n, step);
    var c := CeilDiv(n * step, 10);
    assert r >= 10 * c >= n * step;
    assert r % 10 == 0;
  }

  /** One stride of the schedule: a stride that reaches `n * step` is
      ring n and the next ring is at least a stride later; an earlier
      stride is at least a stride before ring n. */
  lemma ScheduleStep(n: nat, step: nat, i: nat)
    requires i % 10 == 0 && 10 * n <= i <= RingAt(n, step)
    ensures i >= n * step ==> i == RingAt(n, step) && i + 10 <= RingAt(n + 1, step)
    ensures i < n * step ==> i + 10 <= RingAt(n, step)
    ensures (n + 1) * step == n * step + step
  {
    if i >= n * step {
      RingAtReached(n, step, i);
      RingAtAdvances(n, step);
    } else {
      BeforeRing(n, step, i);
    }
  }

  /** The outer loop of `parseAudio` reduced to the samples that start a
      ring: strides of 10 over `total` samples, a ring whenever the stride
      reaches `nextVizIndex`, which then advances by `step`. */
  method RingSchedule(total: nat) returns (rings: seq<nat>)
    ensures forall k :: 0 <= k < |rings| ==> rings[k] == RingAt(k, total / 2000)
    ensures forall k :: 0 <= k < |rings| ==> rings[k] < total
    ensures RingAt(|rings|, total / 2000) >= total
  {
    var step := total / 2000;
    var next := 0;
    var i := 0;
    rings := [];
    while i < total
      invariant i % 10 == 0
      invariant 10 * |rings| <= i <= RingAt(|rings|, step)
      invariant next == |rings| * step
      invariant forall k :: 0 <= k < |rings| ==> rings[k] == RingAt(k, step) && rings[k] < total
    {
      ScheduleStep(|rings|, step, i);
      if i >= next {
        next := next + step;
        rings := rings + [i];
      }
      i := i + 10;
    }
  }

  /** Rings come in increasing sample order, each on a stride. */
  lemma {:induction false} RingsIncrease(k: nat, k': nat, step: nat)
    requires k < k'
    ensures RingAt(k, step) < RingAt(k', step)
    ensures RingAt(k, step) % 10 == 0
    decreases k' - k
  {
    RingAtAdvances(k, step);
    if k + 1 < k' {
      RingsIncrease(k + 1, k', step);
    }
  }

  /** A track shorter than 20000 samples (step below 10) gets a ring at
      every stride. */
  lemma DenseWhenShort(k: nat, step: nat)
    requires step <= FilterStride
    ensures RingAt(k, step) == 10 * k
  {
    assert k * step <= k * 10;
  }

  /** A longer track gets rings about `step` samples apart. */
  lemma SpacedWhenLong(k: nat, step: nat)
    requires step >= FilterStride
    ensures step - FilterStride < RingAt(k + 1, step) - RingAt(k, step) < step + FilterStride
  {
    var a := k * step;
    var a' := (k + 1) * step;
    assert a' == a + step;
    assert a >= 10 * k;
    CeilWithin(a, k);
    CeilWithin(a', k + 1);
  }

  /** When k * 10 <= a, ring k sits at the first stride at or past a. */
  lemma CeilWithin(a: nat, k: nat)
    requires a >= 10 * k
    ensures a <= 10 * Max(k, CeilDiv(a, 10)) < a + 10
  {
    var c := CeilDiv(a, 10);
    assert c >= k;
  }

  // ------------------------------------------------------------- topology

  /** Vertex `seg` of ring `ring`; its index in the position array is
      `Index`, since every ring pushes its 8 vertices in segment order. */
  datatype Vertex = Vertex(ring: nat, seg: nat)

  function Index(v: Vertex): nat {
    8 * v.ring + v.seg
  }

  /** The four kinds of link `parseAudio` makes from a vertex `a` to a
      vertex `b`: a rung to the same segment of the next ring, an edge to
      the next segment of the same ring, and the two diagonals of the quad
      between them. */
  predicate Link(a: Vertex, b: Vertex) {
    && a.seg < Segments && b.seg < Segments
    && (|| (b.ring == a.ring + 1 && b.seg == a.seg)
        || (b.ring == a.ring && b.seg == (a.seg + 1) % 8)
        || (b.ring == a.ring + 1 && b.seg == (a.seg + 1) % 8)
        || (b.ring == a.ring + 1 && (b.seg + 1) % 8 == a.seg))
  }

  /** Link p is one of the links that tie ring r to ring r - 1. */
  predicate JoinsRing(p: (Vertex, Vertex), r: nat) {
    Link(p.0, p.1) && r - 1 <= p.0.ring && p.1.ring == r
  }

  /** The links of segment s of ring r (r >= 1) to ring r - 1, in the
      order they are pushed. */
  function SegmentLinks(r: nat, s: nat, coin: (nat, nat, nat) -> bool): (l: seq<(Vertex, Vertex)>)
    requires r >= 1 && s < Segments
    ensures 2 <= |l| <= 4
    ensures forall j :: 0 <= j < |l| ==> JoinsRing(l[j], r)
    ensures l[0] == (Vertex(r - 1, s), Vertex(r, s))
    ensures l[1] == (Vertex(r, s), Vertex(r, (s + 1) % 8))
  {
    var prev := Vertex(r - 1, s);
    var cur := Vertex(r, s);
    var prevNext := Vertex(r - 1, (s + 1) % 8);
    var curNext := Vertex(r, (s + 1) % 8);
    [(prev, cur), (cur, curNext)]
    + (if coin(r, s, 0) then [(prev, curNext)] else [])
    + (if coin(r, s, 1) then [(prevNext, cur)] else [])
  }

  /** The links of the first n segments of ring r. */
  function RingJoin(r: nat, n: nat, coin: (nat, nat, nat) -> bool): (l: seq<(Vertex, Vertex)>)
    requires r >= 1 && n <= Segments
    ensures 2 * n <= |l| <= 4 * n
  {
    if n == 0 then []
    else RingJoin(r, n - 1, coin) + SegmentLinks(r, n - 1, coin)
  }

  /** The links among the first `count` rings. */
  function Links(count: nat, coin: (nat, nat, nat) -> bool): (l: seq<(Vertex, Vertex)>)
    ensures count >= 1 ==> 16 * (count - 1) <= |l| <= 32 * (count - 1)
    ensures count <= 1 ==> l == []
  {
    if count <= 1 then []
    else Links(count - 1, coin) + RingJoin(count - 1, Segments, coin)
  }

  /** `allIndices`: every link pushed as its two vertex indices. */
  function Flat(l: seq<(Vertex, Vertex)>): (a: seq<nat>)
    ensures |a| == 2 * |l|
    ensures forall j :: 0 <= j < |a| ==>
      a[j] == if j % 2 == 0 then Index(l[j / 2].0) else Index(l[j / 2].1)
  {
    if |l| == 0 then []
    else Flat(l[..|l| - 1]) + [Index(l[|l| - 1].0), Index(l[|l| - 1].1)]
  }

  /** The stats of a track with `count` rings: 8 vertices per ring and one
      link per index pair. */
  function Stats(count: nat, coin: (nat, nat, nat) -> bool): (s: (nat, nat, nat))
    ensures s.0 == 8 * count && s.2 == AudioLayers
    ensures count >= 1 ==> 16 * (count - 1) <= s.1 <= 32 * (count - 1)
  {
    (8 * count, |Flat(Links(count, coin))| / 2, AudioLayers)
  }

  // ---------------------------------------------------------------- lemmas

  /** Distinct vertices have distinct indices, so ring r owns exactly the
      indices 8r .. 8r + 7. */
  lemma IndexInjective(v: Vertex, w: Vertex)
    requires v.seg < Segments && w.seg < Segments
    requires Index(v) == Index(w)
    ensures v == w
  {
  }

  /** Every link ring r makes with its predecessor is a rung, a rim edge
      or a diagonal into ring r. */
  lemma {:induction false} RingJoinLinks(r: nat, n: nat, coin: (nat, nat, nat) -> bool)
    requires r >= 1 && n <= Segments
    ensures forall j :: 0 <= j < |RingJoin(r, n, coin)| ==> JoinsRing(RingJoin(r, n, coin)[j], r)
    decreases n
  {
    if n > 0 {
      RingJoinLinks(r, n - 1, coin);
      var a := RingJoin(r, n - 1, coin);
      var b := SegmentLinks(r, n - 1, coin);
      var l: seq<(Vertex, Vertex)> := a + b;
      assert RingJoin(r, n, coin) == l;
      forall j | 0 <= j < |l|
        ensures JoinsRing(l[j], r)
      {
        if j < |a| {
          KeptByAppend(a, b, j);
          assert JoinsRing(a[j], r);
        } else {
          ShiftedByAppend(a, b, j - |a|);
          assert JoinsRing(b[j - |a|], r);
        }
      }
    }
  }

  /** Every pushed pair is a rung, rim edge or diagonal among the first
      `count` rings. */
  lemma {:induction false} LinksWellFormed(count: nat, coin: (nat, nat, nat) -> bool)
    ensures forall j :: 0 <= j < |Links(count, coin)| ==>
      Link(Links(count, coin)[j].0, Links(count, coin)[j].1) && Links(count, coin)[j].1.ring < count
    decreases count
  {
    if count > 1 {
      LinksWellFormed(count - 1, coin);
      RingJoinLinks(count - 1, Segments, coin);
      var a := Links(count - 1, coin);
      var b := RingJoin(count - 1, Segments, coin);
      var l: seq<(Vertex, Vertex)> := a + b;
      assert Links(count, coin) == l;
      forall j | 0 <= j < |l|
        ensures Link(l[j].0, l[j].1) && l[j].1.ring < count
      {
        if j < |a| {
          KeptByAppend(a, b, j);
          assert l[j] == a[j];
        } else {
          ShiftedByAppend(a, b, j - |a|);
          assert l[j] == b[j - |a|];
          assert JoinsRing(b[j - |a|], count - 1);
        }
      }
    }
  }

  /** Every index in `allIndices` names a vertex that exists. */
  lemma IndicesInRange(count: nat, coin: (nat, nat, nat) -> bool)
    ensures forall j :: 0 <= j < |Flat(Links(count, coin))| ==> Flat(Links(count, coin))[j] < 8 * count
  {
    LinksWellFormed(count, coin);
    var l := Links(count, coin);
    var a := Flat(l);
    forall j | 0 <= j < |a|
      ensures a[j] < 8 * count
    {
      var v, w := l[j / 2].0, l[j / 2].1;
      assert Link(v, w) && w.ring < count;
      IndexBelow(v, w.ring, count);
      IndexBelow(w, w.ring, count);
      assert a[j] == Index(v) || a[j] == Index(w);
    }
  }

  lemma IndexBelow(v: Vertex, top: nat, count: nat)
    requires v.seg < Segments && v.ring <= top < count
    ensures Index(v) < 8 * count
  {
  }

  /** The rung from segment s of ring r - 1 up to ring r. */
  function Rung(r: nat, s: nat): (Vertex, Vertex)
    requires r >= 1
  {
    (Vertex(r - 1, s), Vertex(r, s))
  }

  /** The rim edge from segment s of ring r to the next segment. */
  function Rim(r: nat, s: nat): (Vertex, Vertex) {
    (Vertex(r, s), Vertex(r, (s + 1) % 8))
  }

  /** Position i of l holds p. */
  predicate At(l: seq<(Vertex, Vertex)>, i: nat, p: (Vertex, Vertex)) {
    i < |l| && l[i] == p
  }

  lemma AtKept(a: seq<(Vertex, Vertex)>, b: seq<(Vertex, Vertex)>, i: nat, p: (Vertex, Vertex))
    requires At(a, i, p)
    ensures At(a + b, i, p)
  {
  }

  lemma AtShifted(a: seq<(Vertex, Vertex)>, b: seq<(Vertex, Vertex)>, i: nat, p: (Vertex, Vertex))
    requires At(b, i, p)
    ensures At(a + b, |a| + i, p)
  {
  }

  /** Where segment s of ring r puts its rung and its rim edge among the
      links of the first n segments of the ring. */
  lemma {:induction false} RingJoinHas(r: nat, n: nat, coin: (nat, nat, nat) -> bool, s: nat)
    returns (rung: nat, rim: nat)
    requires r >= 1 && s < n <= Segments
    ensures At(RingJoin(r, n, coin), rung, Rung(r, s))
    ensures At(RingJoin(r, n, coin), rim, Rim(r, s))
    decreases n
  {
    var before := RingJoin(r, n - 1, coin);
    var seg := SegmentLinks(r, n - 1, coin);
    assert RingJoin(r, n, coin) == before + seg;
    if s < n - 1 {
      rung, rim := RingJoinHas(r, n - 1, coin, s);
      AtKept(before, seg, rung, Rung(r, s));
      AtKept(before, seg, rim, Rim(r, s));
    } else {
      AtShifted(before, seg, 0, Rung(r, s));
      AtShifted(before, seg, 1, Rim(r, s));
      rung, rim := |before|, |before| + 1;
    }
  }

  lemma KeptByAppend<T>(a: seq<T>, b: seq<T>, i: nat)
    requires i < |a|
    ensures (a + b)[i] == a[i]
  {
  }

  lemma ShiftedByAppend<T>(a: seq<T>, b: seq<T>, i: nat)
    requires i < |b|
    ensures (a + b)[|a| + i] == b[i]
  {
  }

  /** Whatever the coins show, every ring after the first is closed around
      and tied by a rung, segment by segment, to the ring before it. */
  lemma {:induction false} RungsAndRims(count: nat, coin: (nat, nat, nat) -> bool, r: nat, s: nat)
    returns (rung: nat, rim: nat)
    requires 1 <= r < count && s < Segments
    ensures At(Links(count, coin), rung, Rung(r, s))
    ensures At(Links(count, coin), rim, Rim(r, s))
    decreases count
  {
    var before := Links(count - 1, coin);
    var ring := RingJoin(count - 1, Segments, coin);
    assert Links(count, coin) == before + ring;
    if r < count - 1 {
      rung, rim := RungsAndRims(count - 1, coin, r, s);
      AtKept(before, ring, rung, Rung(r, s));
      AtKept(before, ring, rim, Rim(r, s));
    } else {
      var i, j := RingJoinHas(r, Segments, coin, s);
      AtShifted(before, ring, i, Rung(r, s));
      AtShifted(before, ring, j, Rim(r, s));
      rung, rim := |before| + i, |before| + j;
    }
  }

  /** The first link pushed is the rung from vertex 0 of ring 0 to vertex 0
      of ring 1, so `allIndices` starts with the vertex numbers 0 and 8. */
  lemma AllIndicesStart(count: nat, coin: (nat, nat, nat) -> bool)
    requires count >= 2
    ensures |Flat(Links(count, coin))| >= 32
    ensures Flat(Links(count, coin))[0] == 0 && Flat(Links(count, coin))[1] == 8
  {
    FirstLinkIsRung(count, coin);
    assert |Links(count, coin)| >= 16;
    FlatStart(Links(count, coin));
  }

  lemma FlatStart(l: seq<(Vertex, Vertex)>)
    requires |l| >= 1
    ensures Flat(l)[0] == Index(l[0].0) && Flat(l)[1] == Index(l[0].1)
  {
    var a := Flat(l);
    assert a[0] == Index(l[0 / 2].0);
    assert a[1] == Index(l[1 / 2].1);
  }

  lemma {:induction false} FirstLinkIsRung(count: nat, coin: (nat, nat, nat) -> bool)
    requires count >= 2
    ensures At(Links(count, coin), 0, Rung(1, 0))
    decreases count
  {
    var before := Links(count - 1, coin);
    var ring := RingJoin(count - 1, Segments, coin);
    assert Links(count, coin) == before + ring;
    if count == 2 {
      RingJoinStartsWithRung(1, Segments, coin);
      AtShifted(before, ring, 0, Rung(1, 0));
    } else {
      FirstLinkIsRung(count - 1, coin);
      AtKept(before, ring, 0, Rung(1, 0));
    }
  }

  lemma {:induction false} RingJoinStartsWithRung(r: nat, n: nat, coin: (nat, nat, nat) -> bool)
    requires r >= 1 && 1 <= n <= Segments
    ensures At(RingJoin(r, n, coin), 0, Rung(r, 0))
    decreases n
  {
    var before := RingJoin(r, n - 1, coin);
    var seg := SegmentLinks(r, n - 1, coin);
    assert RingJoin(r, n, coin) == before + seg;
    if n == 1 {
      AtShifted(before, seg, 0, Rung(r, 0));
    } else {
      RingJoinStartsWithRung(r, n - 1, coin);
      AtKept(before, seg, 0, Rung(r, 0));
    }
  }

  /** With no diagonals drawn the mesh has exactly two links per segment. */
  lemma {:induction false} NoDiagonals(count: nat, coin: (nat, nat, nat) -> bool)
    requires forall r, s, c :: !coin(r, s, c)
    requires count >= 1
    ensures |Links(count, coin)| == 16 * (count - 1)
    decreases count
  {
    if count > 1 {
      NoDiagonals(count - 1, coin);
      NoDiagonalsRing(count - 1, Segments, coin);
    }
  }

  lemma {:induction false} NoDiagonalsRing(r: nat, n: nat, coin: (nat, nat, nat) -> bool)
    requires forall r, s, c :: !coin(r, s, c)
    requires r >= 1 && n <= Segments
    ensures |RingJoin(r, n, coin)| == 2 * n
    decreases n
  {
    if n > 0 {
      NoDiagonalsRing(r, n - 1, coin);
      assert |SegmentLinks(r, n - 1, coin)| == 2;
    }
  }
}

=== FILE: shading.dfy ===
/** The fragment-side colour logic shared by the crystal shaders: the hue of
    a vertex colour (`getHue`), its remapping onto the six-colour palette
    (`applyPalette`), and the random per-line seed that splits the wireframe
    between the standard line material and the XOR line material. */
module Shading {
  import opened Vectors
  import Rings

  const PaletteSize: nat := 6

  function Min3(a: real, b: real, c: real): (r: real)
    ensures r <= a && r <= b && r <= c
    ensures r == a || r == b || r == c
  {
    if a <= b && a <= c then a else if b <= c then b else c
  }

  function Max3(a: real, b: real, c: real): (r: real)
    ensures r >= a && r >= b && r >= c
    ensures r == a || r == b || r == c
  {
    if a >= b && a >= c then a else if b >= c then b else c
  }

  /** `|a - b| <= d` gives `-1 <= (a - b) / d <= 1`. */
  lemma RatioInUnit(a: real, b: real, d: real)
    requires d > 0.0 && -d <= a - b <= d
    ensures -1.0 <= (a - b) / d <= 1.0
  {
    var q := (a - b) / d;
    assert q * d == a - b;
  }

  /** Position of (x, y, z) around the colour wheel in sixths of a turn,
      measured from the largest channel `hi` (red first, then green). */
  function Sector(x: real, y: real, z: real, hi: real, delta: real): (t: real)
    requires delta > 0.0 && hi == Max3(x, y, z) && delta == hi - Min3(x, y, z)
    ensures -1.0 <= t <= 5.0
    ensures hi != x ==> t >= 1.0
  {
    if hi == x then
      RatioInUnit(y, z, delta);
      (y - z) / delta
    else if hi == y then
      RatioInUnit(z, x, delta);
      2.0 + (z - x) / delta
    else
      RatioInUnit(x, y, delta);
      4.0 + (x - y) / delta
  }

  /** `getHue`: the HSV hue of an RGB colour as a fraction of a turn. Ties
      between the largest channels go to red, then green; a grey has hue 0. */
  function Hue(c: Vec3): (h: real)
    ensures 0.0 <= h < 1.0
    ensures c.x == c.y == c.z ==> h == 0.0
  {
    var hi := Max3(c.x, c.y, c.z);
    var delta := hi - Min3(c.x, c.y, c.z);
    if delta > 0.0 then Turn(Sector(c.x, c.y, c.z, hi, delta)) else 0.0
  }

  /** Sixths of a turn to a fraction of a turn in [0, 1). */
  function Turn(t: real): (h: real)
    requires -1.0 <= t <= 5.0
    ensures 0.0 <= h < 1.0
    ensures h == t / 6.0 || h == t / 6.0 + 1.0
  {
    var h := t / 6.0;
    if h < 0.0 then h + 1.0 else h
  }

  /** Adding the same amount to every channel keeps the hue. */
  lemma HueShift(c: Vec3, k: real)
    ensures Hue(Add(c, Vec3(k, k, k))) == Hue(c)
  {
    var d := Add(c, Vec3(k, k, k));
    assert Max3(d.x, d.y, d.z) == Max3(c.x, c.y, c.z) + k;
    assert Min3(d.x, d.y, d.z) == Min3(c.x, c.y, c.z) + k;
  }

  /** `(s a - s b) / (s d) == (a - b) / d` for a positive scale s; the
      scaled values are passed as sa, sb and sd. */
  lemma RatioScale(a: real, b: real, d: real, s: real, sa: real, sb: real, sd: real)
    requires d > 0.0 && s > 0.0
    requires sa == s * a && sb == s * b && sd == s * d
    ensures (sa - sb) / sd == (a - b) / d
  {
    MulPositive(s, d);
    var q := (a - b) / d;
    assert q * d == a - b;
    calc {
      q * sd;
      q * (s * d);
      s * (q * d);
      sa - sb;
    }
    DivUnique(sa - sb, sd, q);
  }

  /** Brightening or darkening a colour by a positive factor keeps the hue. */
  lemma HueScale(c: Vec3, s: real)
    requires s > 0.0
    ensures Hue(Scale(c, s)) == Hue(c)
  {
    assert Scale(c, s) == Vec3(s * c.x, s * c.y, s * c.z);
    HueScaleChannels(c, s);
  }

  lemma HueScaleChannels(c: Vec3, s: real)
    requires s > 0.0
    ensures Hue(Vec3(s * c.x, s * c.y, s * c.z)) == Hue(c)
  {
    var d := Vec3(s * c.x, s * c.y, s * c.z);
    ExtremesScale(c.x, c.y, c.z, s, d.x, d.y, d.z);
    HueTransfer(c, d, s);
  }

  lemma HueTransfer(c: Vec3, d: Vec3, s: real)
    requires s > 0.0
    requires d.x == s * c.x && d.y == s * c.y && d.z == s * c.z
    requires Max3(d.x, d.y, d.z) == s * Max3(c.x, c.y, c.z)
    requires Min3(d.x, d.y, d.z) == s * Min3(c.x, c.y, c.z)
    ensures Hue(d) == Hue(c)
  {
    var hi := Max3(c.x, c.y, c.z);
    var delta := hi - Min3(c.x, c.y, c.z);
    var shi := Max3(d.x, d.y, d.z);
    var sdelta := shi - Min3(d.x, d.y, d.z);
    ScaleDifference(s, hi, Min3(c.x, c.y, c.z), shi, Min3(d.x, d.y, d.z));
    if delta > 0.0 {
      HueChromaticScale(c, d, s, hi, delta, shi, sdelta);
    } else {
      HueGrey(c, hi, delta);
      HueGrey(d, shi, sdelta);
    }
  }

  lemma HueChromaticScale(c: Vec3, d: Vec3, s: real, hi: real, delta: real, shi: real, sdelta: real)
    requires s > 0.0 && delta > 0.0
    requires d.x == s * c.x && d.y == s * c.y && d.z == s * c.z
    requires hi == Max3(c.x, c.y, c.z) && delta == hi - Min3(c.x, c.y, c.z)
    requires shi == Max3(d.x, d.y, d.z) && sdelta == shi - Min3(d.x, d.y, d.z)
    requires shi == s * hi && sdelta == s * delta
    ensures Hue(d) == Hue(c)
  {
    MulPositive(s, delta);
    SectorScale(c.x, c.y, c.z, hi, delta, s, d.x, d.y, d.z, shi, sdelta);
    HueBySector(c, hi, delta);
    HueBySector(d, shi, sdelta);
  }

  lemma HueGrey(c: Vec3, hi: real, delta: real)
    requires hi == Max3(c.x, c.y, c.z) && delta == hi - Min3(c.x, c.y, c.z) && delta <= 0.0
    ensures Hue(c) == 0.0
  {
  }

  lemma ScaleDifference(s: real, a: real, b: real, sa: real, sb: real)
    requires sa == s * a && sb == s * b
    ensures sa - sb == s * (a - b)
  {
  }

  lemma HueBySector(c: Vec3, hi: real, delta: real)
    requires delta > 0.0 && hi == Max3(c.x, c.y, c.z) && delta == hi - Min3(c.x, c.y, c.z)
    ensures Hue(c) == Turn(Sector(c.x, c.y, c.z, hi, delta))
  {
  }

  /** Scaling every channel, the largest one and the spread by the same
      positive factor leaves the sector unchanged. */
  lemma SectorScale(x: real, y: real, z: real, hi: real, delta: real,
                    s: real, sx: real, sy: real, sz: real, shi: real, sdelta: real)
    requires s > 0.0
    requires delta > 0.0 && hi == Max3(x, y, z) && delta == hi - Min3(x, y, z)
    requires sdelta > 0.0 && shi == Max3(sx, sy, sz) && sdelta == shi - Min3(sx, sy, sz)
    requires sx == s * x && sy == s * y && sz == s * z && shi == s * hi && sdelta == s * delta
    ensures Sector(sx, sy, sz, shi, sdelta) == Sector(x, y, z, hi, delta)
  {
    ScaleOrder(s, hi, x, shi, sx);
    ScaleOrder(s, hi, y, shi, sy);
    if hi == x {
      RatioScale(y, z, delta, s, sy, sz, sdelta);
    } else if hi == y {
      RatioScale(z, x, delta, s, sz, sx, sdelta);
    } else {
      RatioScale(x, y, delta, s, sx, sy, sdelta);
    }
  }

  /** Scaling by a positive factor keeps the order of two values. */
  lemma ScaleOrder(s: real, a: real, b: real, sa: real, sb: real)
    requires s > 0.0 && sa == s * a && sb == s * b
    ensures (sa >= sb) == (a >= b)
    ensures (sa <= sb) == (a <= b)
    ensures (sa == sb) == (a == b)
  {
    assert sa - sb == s * (a - b);
    if a > b {
      MulPositive(s, a - b);
    } else if a < b {
      MulPositive(s, b - a);
    }
  }

  /** The largest and smallest channel scale with the colour. */
  lemma ExtremesScale(a: real, b: real, c: real, s: real, sa: real, sb: real, sc: real)
    requires s > 0.0 && sa == s * a && sb == s * b && sc == s * c
    ensures Max3(sa, sb, sc) == s * Max3(a, b, c)
    ensures Min3(sa, sb, sc) == s * Min3(a, b, c)
  {
    ScaleOrder(s, a, b, sa, sb);
    ScaleOrder(s, a, c, sa, sc);
    ScaleOrder(s, b, c, sb, sc);
  }

  /** The primaries sit a third of a turn apart. */
  lemma HuePrimaries()
    ensures Hue(Vec3(1.0, 0.0, 0.0)) == 0.0
    ensures Hue(Vec3(0.0, 1.0, 0.0)) == 1.0 / 3.0
    ensures Hue(Vec3(0.0, 0.0, 1.0)) == 2.0 / 3.0
  {
  }

  /** The palette segment a colour falls in: GLSL `int(hue * 5.0)`. */
  function Segment(c: Vec3): (i: int)
    ensures 0 <= i < PaletteSize - 1
  {
    Trunc(Hue(c) * 5.0)
  }

  /** `applyPalette`: the hue picks a point on the polyline through the six
      palette colours. The closing `return uPalette[5]` would be reached only
      if `int(hue * 5.0)` left 0..4, which a hue in [0, 1) never does: the
      final branch is proved dead. */
  function ApplyPalette(pal: seq<Vec3>, c: Vec3): (r: Vec3)
    requires |pal| == PaletteSize
    ensures var i := Segment(c);
            r == MixV(pal[i], pal[i + 1], Hue(c) * 5.0 - i as real)
  {
    var p := Hue(c) * 5.0;
    var i := Trunc(p);
    var f := Fract(p);
    if i == 0 then MixV(pal[0], pal[1], f)
    else if i == 1 then MixV(pal[1], pal[2], f)
    else if i == 2 then MixV(pal[2], pal[3], f)
    else if i == 3 then MixV(pal[3], pal[4], f)
    else if i == 4 then MixV(pal[4], pal[5], f)
    else assert false; Zero
  }

  /** A remapped colour lies, channel by channel, between the two palette
      entries of its segment. */
  lemma PaletteBetween(pal: seq<Vec3>, c: Vec3)
    requires |pal| == PaletteSize
    ensures var i := Segment(c); var r := ApplyPalette(pal, c);
            Between(pal[i].x, pal[i + 1].x, r.x) &&
            Between(pal[i].y, pal[i + 1].y, r.y) &&
            Between(pal[i].z, pal[i + 1].z, r.z)
  {
  }

  predicate Between(a: real, b: real, v: real) {
    (a <= v <= b) || (b <= v <= a)
  }

  /** A palette of one colour repeated (the start-up palette is six whites)
      paints every vertex that colour. */
  lemma UniformPalette(w: Vec3, c: Vec3)
    ensures ApplyPalette(seq(PaletteSize, _ => w), c) == w
  {
  }

  /** Greys take the first palette colour; pure red, green and blue land
      at the start, two thirds into the second and a third into the fourth
      segment. */
  lemma PalettePrimaries(pal: seq<Vec3>, k: real)
    requires |pal| == PaletteSize
    ensures ApplyPalette(pal, Vec3(k, k, k)) == pal[0]
    ensures ApplyPalette(pal, Vec3(1.0, 0.0, 0.0)) == pal[0]
    ensures ApplyPalette(pal, Vec3(0.0, 1.0, 0.0)) == MixV(pal[1], pal[2], 2.0 / 3.0)
    ensures ApplyPalette(pal, Vec3(0.0, 0.0, 1.0)) == MixV(pal[3], pal[4], 1.0 / 3.0)
  {
    HuePrimaries();
    PaletteAtHue(pal, Vec3(k, k, k), 0, 0.0);
    PaletteAtHue(pal, Vec3(1.0, 0.0, 0.0), 0, 0.0);
    PaletteAtHue(pal, Vec3(0.0, 1.0, 0.0), 1, 2.0 / 3.0);
    PaletteAtHue(pal, Vec3(0.0, 0.0, 1.0), 3, 1.0 / 3.0);
  }

  /** A colour whose scaled hue is i + f lands at fraction f of segment i. */
  lemma PaletteAtHue(pal: seq<Vec3>, c: Vec3, i: int, f: real)
    requires |pal| == PaletteSize && 0 <= i < 5 && 0.0 <= f < 1.0
    requires Hue(c) * 5.0 == i as real + f
    ensures ApplyPalette(pal, c) == MixV(pal[i], pal[i + 1], f)
  {
    assert Segment(c) == i;
  }

  /** The per-index seed attribute of the wireframe: one `Math.random()`
      draw per line, written to both of its endpoint slots. `coins` are the
      successive draws. A trailing odd index (never produced by the loaders)
      gets a draw of its own; the write past the end is dropped, as typed
      arrays do. */
  method LineSeeds(n: nat, coins: seq<real>) returns (seeds: seq<real>)
    requires |coins| >= (n + 1) / 2
    ensures |seeds| == n
    ensures forall k :: 0 <= k < n ==> seeds[k] == coins[k / 2]
  {
    seeds := seq(n, _ => 0.0);
    var i := 0;
    while i < n
      invariant 0 <= i <= n + 1 && i % 2 == 0
      invariant |seeds| == n
      invariant forall k :: 0 <= k < i && k < n ==> seeds[k] == coins[k / 2]
    {
      var seed := coins[i / 2];
      seeds := seeds[i := seed];
      if i + 1 < n {
        seeds := seeds[i + 1 := seed];
      }
      i := i + 2;
    }
  }

  /** The seed the wireframe interpolates along line e, as written. The
      index buffer makes `aLineSeed` a per-vertex attribute, so line e reads
      the seeds stored under its two vertex numbers `idx[2e]` and
      `idx[2e + 1]`, not the slots 2e and 2e + 1 where draw e was written. */
  function IndexedLineSeed(seeds: seq<real>, idx: seq<nat>, e: nat, t: real): real
    requires 2 * e + 1 < |idx| && idx[2 * e] < |seeds| && idx[2 * e + 1] < |seeds|
  {
    Mix(seeds[idx[2 * e]], seeds[idx[2 * e + 1]], t)
  }

  /** The per-line seed the loop evidently means: line e reads the two
      slots its own draw was written to, as a non-indexed copy of the
      wireframe would. */
  function SlotLineSeed(seeds: seq<real>, e: nat, t: real): real
    requires 2 * e + 1 < |seeds|
  {
    Mix(seeds[2 * e], seeds[2 * e + 1], t)
  }

  /** As written, a line starts with the seed of its first vertex and ends
      with the seed of its second. */
  lemma IndexedLineEnds(seeds: seq<real>, idx: seq<nat>, e: nat)
    requires 2 * e + 1 < |idx| && idx[2 * e] < |seeds| && idx[2 * e + 1] < |seeds|
    ensures IndexedLineSeed(seeds, idx, e, 0.0) == seeds[idx[2 * e]]
    ensures IndexedLineSeed(seeds, idx, e, 1.0) == seeds[idx[2 * e + 1]]
  {
  }

  /** As written, the first line of an audio mesh joins vertices 0 and 8,
      whose seeds are draws 0 and 4. When the threshold falls between those
      draws, the line is drawn by the XOR material at one end and by the
      standard material at the other. */
  lemma IndexedLineSplits(count: nat, coin: (nat, nat, nat) -> bool,
                          coins: seq<real>, seeds: seq<real>, threshold: real)
    requires count >= 2
    requires |seeds| == |Rings.Flat(Rings.Links(count, coin))|
    requires |coins| >= (|seeds| + 1) / 2
    requires forall k :: 0 <= k < |seeds| ==> seeds[k] == coins[k / 2]
    requires coins[0] < threshold <= coins[4]
    ensures var idx := Rings.Flat(Rings.Links(count, coin));
      && |idx| >= 2 && idx[0] == 0 && idx[1] == 8 && 8 < |seeds|
      && DrawnByXor(IndexedLineSeed(seeds, idx, 0, 0.0), threshold)
      && DrawnByStandard(IndexedLineSeed(seeds, idx, 0, 1.0), threshold)
  {
    var idx := Rings.Flat(Rings.Links(count, coin));
    Rings.AllIndicesStart(count, coin);
    IndexedLineEnds(seeds, idx, 0);
    assert seeds[0] == coins[0 / 2];
    assert seeds[8] == coins[8 / 2];
  }

  /** In the corrected wireframe both ends of line e carry draw e, so the
      interpolated seed is that draw along the whole line. */
  lemma SeedConstantAlongLine(seeds: seq<real>, coins: seq<real>, e: nat, t: real)
    requires |coins| >= (|seeds| + 1) / 2
    requires forall k :: 0 <= k < |seeds| ==> seeds[k] == coins[k / 2]
    requires 2 * e + 1 < |seeds|
    ensures SlotLineSeed(seeds, e, t) == coins[e]
  {
    assert (2 * e) / 2 == e && (2 * e + 1) / 2 == e;
  }

  /** In the corrected wireframe no line is split: every point of line e is
      drawn by the material its draw selects. */
  lemma SlotLineWhole(seeds: seq<real>, coins: seq<real>, e: nat, t: real, threshold: real)
    requires |coins| >= (|seeds| + 1) / 2
    requires forall k :: 0 <= k < |seeds| ==> seeds[k] == coins[k / 2]
    requires 2 * e + 1 < |seeds|
    ensures DrawnByXor(SlotLineSeed(seeds, e, t), threshold) <==> DrawnByXor(coins[e], threshold)
    ensures DrawnByStandard(SlotLineSeed(seeds, e, t), threshold) <==> DrawnByStandard(coins[e], threshold)
  {
    SeedConstantAlongLine(seeds, coins, e, t);
  }

  /** The standard line material discards a fragment whose seed is below
      `uXorThreshold`. */
  predicate StandardDiscards(seed: real, threshold: real) {
    seed < threshold
  }

  /** The XOR line material discards a fragment whose seed is at or above
      `uXorThreshold`. */
  predicate XorDiscards(seed: real, threshold: real) {
    seed >= threshold
  }

  predicate DrawnByStandard(seed: real, threshold: real) {
    !StandardDiscards(seed, threshold)
  }

  predicate DrawnByXor(seed: real, threshold: real) {
    !XorDiscards(seed, threshold)
  }

  /** Seed slots (vertex numbers) whose seed the XOR material keeps. */
  function XorSlots(seeds: seq<real>, threshold: real): set<nat> {
    set k: nat | k < |seeds| && DrawnByXor(seeds[k], threshold)
  }

  /** Seed slots whose seed the standard material keeps. */
  function StandardSlots(seeds: seq<real>, threshold: real): set<nat> {
    set k: nat | k < |seeds| && DrawnByStandard(seeds[k], threshold)
  }

  /** The two seed discard tests are complementary: every fragment passes
      the XOR-threshold test of exactly one of the two materials, whatever
      its seed. The materials' other discards (density and alpha) are not
      part of this split. */
  lemma MaterialsPartition(seeds: seq<real>, threshold: real)
    ensures forall seed: real :: DrawnByXor(seed, threshold) != DrawnByStandard(seed, threshold)
    ensures XorSlots(seeds, threshold) !! StandardSlots(seeds, threshold)
    ensures forall k: nat :: k < |seeds| ==> k in XorSlots(seeds, threshold) + StandardSlots(seeds, threshold)
    ensures forall k :: k in XorSlots(seeds, threshold) + StandardSlots(seeds, threshold) ==> k < |seeds|
  {
  }

  /** Raising the threshold only moves seeds into the XOR pool. */
  lemma XorPoolGrows(seeds: seq<real>, t1: real, t2: real)
    requires t1 <= t2
    ensures XorSlots(seeds, t1) <= XorSlots(seeds, t2)
    ensures StandardSlots(seeds, t2) <= StandardSlots(seeds, t1)
  {
  }
}

=== FILE: vectors.dfy ===
/** Three-component real vectors and the handful of GLSL / JavaScript numeric
    builtins the visualiser relies on (mix, fract, int(), clamp, smoothstep,
    Math.floor). Floating point is modelled by exact reals. */
module Vectors {

  datatype Vec3 = Vec3(x: real, y: real, z: real)

  const Zero: Vec3 := Vec3(0.0, 0.0, 0.0)

  function Add(a: Vec3, b: Vec3): Vec3 {
    Vec3(a.x + b.x, a.y + b.y, a.z + b.z)
  }

  function Sub(a: Vec3, b: Vec3): Vec3 {
    Vec3(a.x - b.x, a.y - b.y, a.z - b.z)
  }

  function Scale(a: Vec3, k: real): Vec3 {
    Vec3(a.x * k, a.y * k, a.z * k)
  }

  /** Coordinate k (0 = x, 1 = y, 2 = z) of a vector. */
  function Coord(v: Vec3, k: nat): real
    requires k < 3
  {
    if k == 0 then v.x else if k == 1 then v.y else v.z
  }

  function Abs(x: real): (r: real)
    ensures r >= 0.0 && (r == x || r == -x)
  {
    if x < 0.0 then -x else x
  }

  /** GLSL `mix(a, b, t)`, which is also the viewer's `lerp(cur, tar, speed)`. */
  function Mix(a: real, b: real, t: real): (r: real)
    ensures 0.0 <= t <= 1.0 && a <= b ==> a <= r <= b
    ensures 0.0 <= t <= 1.0 && b <= a ==> b <= r <= a
    ensures b - r == (b - a) * (1.0 - t)
  {
    var r := a + (b - a) * t;
    MixBetween(a, b, t, r);
    r
  }

  lemma MixBetween(a: real, b: real, t: real, r: real)
    requires r == a + (b - a) * t
    ensures b - r == (b - a) * (1.0 - t)
    ensures 0.0 <= t <= 1.0 && a <= b ==> a <= r <= b
    ensures 0.0 <= t <= 1.0 && b <= a ==> b <= r <= a
  {
    assert (b - a) * (1.0 - t) == (b - a) - (b - a) * t;
    if 0.0 <= t <= 1.0 {
      if a <= b {
        MulNonNegative(b - a, t);
        MulNonNegative(b - a, 1.0 - t);
      } else {
        MulNonNegative(a - b, t);
        MulNonNegative(a - b, 1.0 - t);
      }
    }
  }

  function MixV(a: Vec3, b: Vec3, t: real): Vec3 {
    Vec3(Mix(a.x, b.x, t), Mix(a.y, b.y, t), Mix(a.z, b.z, t))
  }

  /** JavaScript `Math.floor` and GLSL `floor`. */
  function Floor(x: real): (r: int)
    ensures r as real <= x < r as real + 1.0
  {
    x.Floor
  }

  /** GLSL `fract(x) = x - floor(x)`. */
  function Fract(x: real): (r: real)
    ensures 0.0 <= r < 1.0
    ensures x - r == Floor(x) as real
  {
    x - Floor(x) as real
  }

  /** GLSL `int(x)`: conversion that truncates toward zero. */
  function Trunc(x: real): (r: int)
    ensures x >= 0.0 ==> r == Floor(x)
    ensures x < 0.0 ==> r as real - 1.0 < x <= r as real
    ensures -1.0 < x < 1.0 ==> r == 0
  {
    if x >= 0.0 then Floor(x) else -Floor(-x)
  }

  /** `Math.max(lo, Math.min(hi, x))` on integers. */
  function ClampInt(x: int, lo: int, hi: int): (r: int)
    requires lo <= hi
    ensures lo <= r <= hi
    ensures lo <= x <= hi ==> r == x
    ensures x < lo ==> r == lo
    ensures x > hi ==> r == hi
  {
    if x < lo then lo else if x > hi then hi else x
  }

  /** GLSL `clamp(x, lo, hi)` on reals. */
  function Clamp(x: real, lo: real, hi: real): (r: real)
    requires lo <= hi
    ensures lo <= r <= hi
    ensures lo <= x <= hi ==> r == x
    ensures x < lo ==> r == lo
    ensures x > hi ==> r == hi
  {
    if x < lo then lo else if x > hi then hi else x
  }

  /** GLSL `smoothstep(e0, e1, x)` as drivers evaluate it, including the
      reversed-edge form `smoothstep(3.0, 0.0, d)` the shaders use. */
  function Smoothstep(e0: real, e1: real, x: real): (r: real)
    requires e0 != e1
    ensures 0.0 <= r <= 1.0
    ensures (x - e0) / (e1 - e0) > 0.0 ==> r > 0.0
  {
    var q := (x - e0) / (e1 - e0);
    var t := Clamp(q, 0.0, 1.0);
    HermiteBounds(t);
    Hermite(t)
  }

  /** The smoothstep polynomial 3t^2 - 2t^3. */
  function Hermite(t: real): real {
    t * t * (3.0 - 2.0 * t)
  }

  /** On [0, 1] the polynomial stays in [0, 1] and is positive once t is. */
  lemma HermiteBounds(t: real)
    requires 0.0 <= t <= 1.0
    ensures 0.0 <= Hermite(t) <= 1.0
    ensures t > 0.0 ==> Hermite(t) > 0.0
  {
    var u := 3.0 - 2.0 * t;
    MulNonNegative(t, t);
    MulNonNegative(t * t, u);
    MulNonNegative(1.0 - t, 1.0 - t);
    MulNonNegative((1.0 - t) * (1.0 - t), 1.0 + 2.0 * t);
    assert 1.0 - t * t * u == (1.0 - t) * (1.0 - t) * (1.0 + 2.0 * t);
    HermitePositive(t);
  }

  lemma HermitePositive(t: real)
    requires 0.0 <= t <= 1.0
    ensures t > 0.0 ==> Hermite(t) > 0.0
  {
    if t > 0.0 {
      var u := 3.0 - 2.0 * t;
      MulPositive(t, u);
      MulPositive(t, t * u);
      assert t * (t * u) == t * t * u;
    }
  }

  /** x to the power n. */
  function Pow(x: real, n: nat): real {
    if n == 0 then 1.0 else x * Pow(x, n - 1)
  }

  lemma MulNonNegative(a: real, b: real)
    requires a >= 0.0 && b >= 0.0
    ensures a * b >= 0.0
  {
  }

  lemma SquareMonotone(a: real, b: real)
    requires 0.0 <= a <= b
    ensures a * a <= b * b
  {
    MulNonNegative(b - a, b + a);
  }

  /** Only 0 squares to 0. */
  lemma SquarePositive(v: real)
    requires v != 0.0
    ensures v * v > 0.0
  {
    if v > 0.0 {
      calc { v * v; > 0.0 * v; }
    } else {
      calc { v * v; == (-v) * (-v); > 0.0 * (-v); }
    }
  }

  /** A quotient is the one number that multiplies back to the dividend. */
  lemma DivUnique(x: real, y: real, q: real)
    requires y > 0.0 && q * y == x
    ensures x / y == q
  {
    var r := x / y;
    assert r * y == x;
    if r > q { MulPositive(r - q, y); }
    if r < q { MulPositive(q - r, y); }
  }

  lemma MulPositive(a: real, b: real)
    requires a > 0.0 && b > 0.0
    ensures a * b > 0.0
  {
  }
}

/** The optional-value wrapper used for lookups that can miss. */
module Wrappers {

  datatype Option<+T> = None | Some(value: T)
}

=== FILE: viewer.dfy ===
/** One frame of the viewer's animation loop, composed from the parts in the
    order the loop runs them: the uniforms step toward their targets, the
    analyser frame becomes a raw level and then the smoothed `uAudioLevel`,
    a loud enough level kicks the physics spine at the current `uPlayX`, the
    palette steps toward its target, the play position follows the audio
    clock, and the physics step is exported for the shaders. Rendering,
    `uTime`, the point-size LFO and the camera auto-pan are not part of the
    frame modelled here. */
module Viewer {
  import opened Vectors
  import opened Wrappers
  import C = Controls
  import A = Audio
  import P = Physics
  import D = Deformation
  import S = Shading

  /** The state one frame reads and writes: the current and target uniforms,
      `uAudioLevel`, the current and target palettes, the player (which holds
      `uPlayX`) and the physics world. */
  datatype Viewer = Viewer(
    cur: C.Uniforms, tar: C.Uniforms, level: real,
    palette: seq<Vec3>, targetPalette: seq<Vec3>,
    player: A.Player, world: P.World)

  /** What one frame takes from outside: the analyser bytes and their root
      mean square, the random kick direction, the audio clock, the model's
      bounding box along x (if there is one), and the body positions the
      physics library's step produces. */
  datatype Inputs = Inputs(
    samples: seq<A.Byte>, rms: real, dir: Vec3, now: real,
    box: Option<(real, real)>, stepped: seq<Vec3>)

  predicate Valid(v: Viewer) {
    && A.Valid(v.player)
    && P.Valid(v.world)
    && 0.0 <= v.level <= 1.0
    && |v.palette| == S.PaletteSize
    && |v.targetPalette| == S.PaletteSize
  }

  /** The level is measured only while a track plays through the analyser. */
  predicate Listening(p: A.Player) {
    p.playing && p.hasBuffer
  }

  /** What the caller must supply for a frame: a full analyser frame and its
      root while listening, and one stepped position per body. */
  predicate Fits(v: Viewer, io: Inputs)
    requires P.Valid(v.world)
  {
    && (Listening(v.player) ==>
          |io.samples| == A.FrameSamples && io.rms >= 0.0
          && io.rms * io.rms == A.MeanSquare(io.samples))
    && |io.stepped| == v.world.count
  }

  /** The viewer right after construction: default uniforms on both sides,
      silence, a white current palette fading toward the classic target
      palette that the constructor's `setPalette('classic')` installs, no
      audio and the default 50-long, 20-body spine. `parse` reads a hex
      colour. */
  function Initial(parse: string -> Vec3): (v: Viewer)
    ensures Valid(v)
    ensures v.cur == C.DefaultUniforms && v.tar == C.DefaultUniforms
    ensures v.player.playX == A.NotPlaying && v.level == 0.0
    ensures forall i :: 0 <= i < S.PaletteSize ==> v.palette[i] == Vec3(1.0, 1.0, 1.0)
    ensures forall i :: 0 <= i < S.PaletteSize ==>
      v.targetPalette[i] == parse(C.PaletteTable("classic").value[i])
    ensures v.world.count == D.SpineSlots
  {
    var white := seq(S.PaletteSize, _ => Vec3(1.0, 1.0, 1.0));
    Viewer(C.DefaultUniforms, C.DefaultUniforms, 0.0, white, C.SetPalette("classic", parse),
           A.Initial, P.NewWorld(P.DefaultLength, P.DefaultCount))
  }

  /** The physics kick of the frame: only above the noise floor, aimed at
      `playX`. */
  function Kick(w: P.World, level: real, playX: real, dir: Vec3): (r: P.World)
    requires P.Valid(w)
    ensures P.Valid(r) && r.count == w.count
  {
    if level > D.NoiseFloor then P.ApplyAudioForce(w, level, playX, dir) else w
  }

  /** One pass of `animate`. */
  function Frame(v: Viewer, io: Inputs): (r: Viewer)
    requires Valid(v) && Fits(v, io)
    ensures Valid(r)
    ensures r.tar == v.tar && r.targetPalette == v.targetPalette
    ensures forall k :: 0 <= k < C.FieldCount ==>
      C.Field(v.tar, k) - C.Field(r.cur, k) == (C.Field(v.tar, k) - C.Field(v.cur, k)) * C.Gap(k)
    ensures forall i :: 0 <= i < S.PaletteSize ==>
      Sub(v.targetPalette[i], r.palette[i]) == Scale(Sub(v.targetPalette[i], v.palette[i]), 0.9)
    ensures r.world.count == v.world.count
    ensures P.Unflatten(r.world.spinePositions) == io.stepped
    ensures r.player.hasBuffer == v.player.hasBuffer && r.player.duration == v.player.duration
  {
    var cur := C.Smooth(v.cur, v.tar);
    var active := Listening(v.player);
    var raw := A.RawLevel(active, io.samples, io.rms);
    var level := A.Envelope(v.level, raw);
    A.EnvelopeInUnit(v.level, raw);
    var kicked := Kick(v.world, level, v.player.playX, io.dir);
    var palette := C.SmoothPalette(v.palette, v.targetPalette);
    var player :=
      match io.box
      case None => v.player
      case Some(b) => A.Sync(v.player, io.now, true, b.0, b.1);
    var world := P.Update(kicked, io.stepped);
    Viewer(cur, v.tar, level, palette, v.targetPalette, player, world)
  }

  /** The force each body has accumulated. `Physics.Update` leaves forces
      in place: the physics library consumes and clears them in its own
      step, which is not part of this model. */
  function Forces(w: P.World): (fs: seq<Vec3>)
    ensures |fs| == |w.bodies|
  {
    seq(|w.bodies|, i requires 0 <= i < |w.bodies| => w.bodies[i].force)
  }

  // ---------------------------------------------------------------- lemmas

  /** Without a playing track the level only decays, by a tenth per frame. */
  lemma SilentFrameDecays(v: Viewer, io: Inputs)
    requires Valid(v) && Fits(v, io)
    requires !Listening(v.player)
    ensures Frame(v, io).level == 0.9 * v.level
  {
  }

  /** A frame whose level stays at or below the noise floor pushes no body. */
  lemma QuietFrameNoKick(v: Viewer, io: Inputs)
    requires Valid(v) && Fits(v, io)
    requires Frame(v, io).level <= D.NoiseFloor
    ensures Forces(Frame(v, io).world) == Forces(v.world)
  {
  }

  /** While `uPlayX` holds the "not playing" sentinel, however loud the
      level, the default chain is not pushed. */
  lemma SentinelFrameNoKick(v: Viewer, io: Inputs)
    requires Valid(v) && Fits(v, io)
    requires v.player.playX == A.NotPlaying
    requires 0.0 < v.world.length < 19998.0
    ensures Forces(Frame(v, io).world) == Forces(v.world)
  {
    var level := Frame(v, io).level;
    if level > D.NoiseFloor {
      P.SentinelIsNoKick(v.world, level, io.dir);
    }
  }

  /** The kick is aimed with the play position of the previous frame: a
      frame that reaches the end of the track stops it and hides `uPlayX`,
      yet pushes the bodies around the old position. */
  lemma KickPrecedesSync(v: Viewer, io: Inputs)
    requires Valid(v) && Fits(v, io)
    requires io.box.Some? && Listening(v.player)
    requires io.now - v.player.startTime >= v.player.duration
    ensures var r := Frame(v, io);
      && !r.player.playing && r.player.playX == A.NotPlaying
      && Forces(r.world) == Forces(Kick(v.world, r.level, v.player.playX, io.dir))
  {
  }

  /** In the default viewer, a physics step that leaves the bodies where
      they were exports exactly the resting spine the shaders assume. */
  lemma DefaultExportIsRestSpine(parse: string -> Vec3)
    ensures var w := Initial(parse).world;
      P.Unflatten(P.Update(w, P.Positions(w.bodies)).spinePositions) == D.RestSpine()
  {
    var w := Initial(parse).world;
    P.DefaultChain();
    var ps := P.Positions(w.bodies);
    assert |ps| == D.SpineSlots;
    forall k | 0 <= k < D.SpineSlots
      ensures ps[k] == D.RestSpine()[k]
    {
      assert ps[k] == w.bodies[k].position;
    }
  }
}
